=== FILE: README.md ===
# video2dataset reader core and VATEX batch downloader, modelled in Dafny

This project models two pieces of the video2dataset repository as pure functions, and proves what they promise.

**The reader** (`video2dataset/data_reader.py`):
- `get_file_info` sorts a URL into a direct video file, a direct audio file, or neither.
- `VideoDataReader.__call__` sends each row to the web-file downloader or to the yt-dlp downloader, then folds the outcome into `(key, streams, meta, error)`.
- The yt-dlp downloader:
  - recognises the clip locator `<11-char id>_<6 digits>_<6 digits>` and rewrites it to a watch URL with a clip span;
  - builds its format selectors;
  - picks cookie files round robin from a list parsed out of its `cookies_file` setting;
  - attaches `clips` to the metadata.
- `sub_to_dict` removes karaoke cues, blank lines and repeated lines from parsed WebVTT cues, and can join each cue's lines into one.

**The VATEX batch downloader** (`examples/vatex_download.py`):
- `download_worker` reads a `videoID` such as `abc_def_ghi_000002_000012` into an id that may contain underscores plus two numbers, and builds the 11-argument yt-dlp command.
- `process_downloads` skips entries whose file already exists, queues the rest, and tallies the workers' results in any arrival order.
- `main` rejects a job count that is not positive.

Everything the program does outside itself is a parameter of the model:
- HTTP, file reads and writes, and temporary paths;
- yt-dlp's exit status and whether its output file exists;
- the metadata query, `video2audio`;
- the directory listing, and the order in which workers finish.

Python's string behaviour is modelled explicitly in the module `Text`: `strip`, one-character `split`, `join`, `int()` and `str(int)`.

Modules follow the source: `Text`, `Common`, `FileInfo`, `WebFile`, `ClipLocator`, `FormatSelector`, `Cookies`, `YtDlpCall`, `DataReader`, `Subtitles`, `VatexWorker`, `VatexBatch`.

Some properties are proved in lemmas rather than in the function's own contract:
- what a parsed clip locator looks like: `ClipLocator.ParseLocatorSound`;
- the options of each yt-dlp request: `YtDlpCall.PlanRequests`;
- where the metadata keys come from: `YtDlpCall.MetadataFromQuery`.

A format selector is kept as the datatype `FormatSelector.Selector`; `SelectorText` turns it into the text yt-dlp receives.

## Model

| member | source | states |
|---|---|---|
| FileInfo.FirstExtension | video2dataset/data_reader.py:118-123 | the extension returned is the first of the list, in order, that the URL ends with; `None` exactly when it ends with none |
| FileInfo.GetFileInfo | video2dataset/data_reader.py:113-124 | a result names an extension of its modality that the URL ends with; audio only when no video extension matches; `None` exactly when no known extension matches |
| FileInfo.ExtensionsExclusive | video2dataset/data_reader.py:116-117 | no URL ends with two different known extensions, so the order of the checks never changes the answer |
| FileInfo.GetFileInfoComplete | video2dataset/data_reader.py:113-124 | a URL that ends with a known extension is classified as that extension and its modality |
| WebFile.Assemble | video2dataset/data_reader.py:135-156 | an unknown extension raises on unpacking; a known one succeeds exactly when the file was fetched and, for a video with audio requested, the audio probe did not raise, and each such raise is passed on as the error; on success the fetched file is kept under its modality, and extracted audio is added only to a video when audio is requested and extraction produced a file |
| WebFile.DropUnrequestedAsWritten | video2dataset/data_reader.py:158-161 | the loop as written succeeds exactly when every produced modality is a key of `encode_formats`, and otherwise raises `'str' object has no attribute 'pop'` |
| WebFile.DropUnrequested | video2dataset/data_reader.py:158-161 | the intended loop keeps exactly the produced modalities that are keys of `encode_formats`, with their paths |
| WebFile.WebFileDownload | video2dataset/data_reader.py:135-163 | the intended downloader returns only modalities that are keys of `encode_formats` |
| WebFile.WebFileDownloadKeeps | video2dataset/data_reader.py:150-161 | the file's own modality is kept exactly when requested, with the fetched path; audio appears beside a video only when it was requested and extracted |
| WebFile.WebFileDownloadAsWritten | video2dataset/data_reader.py:135-163 | the downloader as written succeeds exactly when the extension is known, the file was fetched, the audio probe (for a video with audio requested) did not raise, and every produced modality is a key of `encode_formats`, and then returns every produced path; otherwise it raises the unpack error, the fetch error, the audio-probe error or the str-pop error |
| WebFile.AsWrittenAgreesWhenAllRequested | video2dataset/data_reader.py:158-163 | when every produced modality is requested, the loop as written and the intended loop return the same result |
| WebFile.AsWrittenRaisesOnUnrequested | video2dataset/data_reader.py:158-161 | a file whose own modality is not requested makes the loop as written raise, while the intended one succeeds |
| WebFile.Mp3WithVideoOnly | video2dataset/data_reader.py:158-161 | an `.mp3` URL with only video requested: the loop as written raises, the intended one returns no modality |
| ClipLocator.MatchedText | video2dataset/data_reader.py:204-205 | the pattern matches the whole URL, or all of it except one final newline (`$`); otherwise there is no match |
| ClipLocator.ParseLocatorSound | video2dataset/data_reader.py:204-207 | a parse fails exactly when the match fails; a parsed locator has an 11-character `[\w-]` id and six-digit numbers, and its canonical spelling is the URL, with or without the final newline |
| ClipLocator.ParseFormatLocator | video2dataset/data_reader.py:204-207 | every canonical locator, with or without a trailing newline, parses back to its id and span, in either order of start and end |
| ClipLocator.ResolveFormatLocator | video2dataset/data_reader.py:204-208 | a locator becomes the watch URL of its id and carries its span |
| ClipLocator.ResolveUnmatched | video2dataset/data_reader.py:202-208 | a URL the pattern does not match is passed on unchanged with no span, and a span is present exactly when the pattern matches |
| FormatSelector.VideoFormatAlternatives | video2dataset/data_reader.py:210-214 | the video selector splits into exactly four alternatives in source order; the codec filter ends the first, second and fourth only when `specify_codec` is set |
| FormatSelector.AudioFormatAlternatives | video2dataset/data_reader.py:215-217 | a positive rate gives two alternatives (an m4a at or above the rate, then the best m4a); any other rate gives the fallback alone |
| Cookies.NonEmptyStrippedOne | video2dataset/data_reader.py:184 | one piece is kept, stripped, exactly when it does not strip to the empty string |
| Cookies.NonEmptyStrippedAppend | video2dataset/data_reader.py:184 | the pieces are filtered one at a time and in order: the result for a concatenation is the concatenation of the results |
| Cookies.NonEmptyStrippedKeepsOut | video2dataset/data_reader.py:184 | a character that no piece holds is in no kept name |
| Cookies.CookieListOfPieces | video2dataset/data_reader.py:184 | a string made of comma-free pieces joined by commas yields exactly the stripped, non-empty pieces, in order |
| Cookies.CookieListSpaced | video2dataset/data_reader.py:184 | `"a.txt, b.txt"` gives `["a.txt", "b.txt"]`: the space after the comma is stripped |
| Cookies.CookieListBlankPiece | video2dataset/data_reader.py:184 | `"a, ,b"` gives `["a", "b"]`: a blank piece is dropped |
| Cookies.CookieFiles | video2dataset/data_reader.py:183-190 | a string gives clean, comma-free names (exactly which ones, `CookieListOfPieces` states); a list is copied; any other truthy value becomes a one-element list; a falsy value or `None` gives no files |
| Cookies.CookieListRoundTrip | video2dataset/data_reader.py:183-184 | a comma-joined list of clean, comma-free names parses back to the same list in the same order; the empty list joins to `""`, whose one blank piece is dropped |
| Cookies.KeepsCleanNames | video2dataset/data_reader.py:184 | names that are already stripped and non-empty are all kept unchanged |
| Cookies.NewPool | video2dataset/data_reader.py:183-192 | a fresh pool holds the parsed files with its cursor at zero |
| Cookies.TakeCookie | video2dataset/data_reader.py:219-222 | with files, one call picks the file under the cursor modulo the pool size and advances the cursor by one; with none, it picks nothing and leaves the pool unchanged |
| Cookies.TakeManyRoundRobin | video2dataset/data_reader.py:219-222 | the `k`-th of `n` picks is the file at `(cursor + k) mod len`, and the cursor ends `n` further on; an empty pool never moves |
| Cookies.FreshPoolRoundRobin | video2dataset/data_reader.py:192 | from a fresh pool the picks run `files[0], files[1], …` and wrap around |
| Cookies.CookieOption | video2dataset/data_reader.py:231-232 | a cookie file is passed to yt-dlp exactly when one was picked and its name is non-empty |
| YtDlpCall.NewDownloader | video2dataset/data_reader.py:176-196 | a missing size defaults to 360 and a missing rate to 44100; the codec filter starts off; the pool starts fresh from the cookie setting |
| YtDlpCall.PlanCall | video2dataset/data_reader.py:198-283 | the call targets the resolved URL and span; an audio or video download is planned exactly when that modality is requested; one cookie is picked per call |
| YtDlpCall.PlanRequests | video2dataset/data_reader.py:224-268 | both downloads share the picked cookie (passed only when non-empty) and the span, are cut at keyframes exactly when there is a span, and use their own selector and output path |
| YtDlpCall.AttemptError | video2dataset/data_reader.py:237-244 | a download succeeds exactly when it raised nothing, exited with status 0 and left its output file |
| YtDlpCall.Metadata | video2dataset/data_reader.py:285-296 | a span adds `clips = [[start, end]]`; without one, the dictionary is the query's result when metadata is asked for and the query did not raise, otherwise empty |
| YtDlpCall.MetadataFromQuery | video2dataset/data_reader.py:285-296 | with a span, every key other than `clips` comes from a requested query that did not raise, with that query's value, and every key that query returned is kept with its value, only `clips` being set; a failed or skipped query leaves only `clips` |
| YtDlpCall.KeptPaths | video2dataset/data_reader.py:245-283 | a modality is returned exactly when it was wanted and its own download succeeded, under its own output path |
| YtDlpCall.YtDlpDownload | video2dataset/data_reader.py:198-298 | the call returns each requested modality whose download succeeded, the metadata above, and no error; the downloader it leaves has moved its cookie cursor once |
| YtDlpCall.KeptAreRequested | video2dataset/data_reader.py:224-283 | a call never returns a modality that was not requested |
| YtDlpCall.DownloadManyPicks | video2dataset/data_reader.py:219-222 | a series of calls picks its cookies exactly as the same number of bare picks from the pool would, whatever the calls' outcomes |
| YtDlpCall.DownloadManyRoundRobin | video2dataset/data_reader.py:219-222 | across any series of calls the `k`-th uses `files[(cursor + k) mod len]` and the cursor ends one step further per call; an empty pool uses no cookie and never moves |
| DataReader.NewReader | video2dataset/data_reader.py:304-307 | a cookie setting given to the reader wins over the configuration's unless it is `None`; both downloaders share `encode_formats` |
| DataReader.ReadWebRow | video2dataset/data_reader.py:313-320 | with the drop loop as written, a raised exception (the str-pop error included) becomes the error message with no streams and no metadata; otherwise the streams are the produced files' bytes, all of requested modalities |
| DataReader.ReadYtRow | video2dataset/data_reader.py:318 | a yt-dlp row has metadata and no error, takes exactly one cookie pick, and yields only requested modalities |
| DataReader.ReadRow | video2dataset/data_reader.py:309-328 | a known extension goes to the web-file downloader as written and leaves the cookie pool alone: its error becomes the row's error with no streams (the str-pop error when the file's own modality is not requested), and its success gives the bytes of the produced files; any other URL goes to yt-dlp, whose kept files' bytes and metadata make the row, with one cookie pick and no error; streams hold only requested modalities |
| DataReader.LocatorIsNotWebFile | video2dataset/data_reader.py:204-208 | a clip locator never ends with a media extension, so it always goes to yt-dlp |
| DataReader.ReadRowsCursor | video2dataset/data_reader.py:315-318 | over successive rows the cookie cursor moves once per yt-dlp row and never for a direct file; files and formats never change |
| Subtitles.IsBlankIffStripsEmpty | video2dataset/data_reader.py:47-48 | a line counts as blank exactly when it strips to the empty string |
| Subtitles.KeepLines | video2dataset/data_reader.py:45-51 | the lines kept from one cue are non-blank lines of that cue, no more of them than it has |
| Subtitles.KeepLinesIsDestutter | video2dataset/data_reader.py:45-51 | one cue keeps its non-blank lines with adjacent repeats removed, and the previous line becomes its last non-blank line |
| Subtitles.DedupeFrom | video2dataset/data_reader.py:38-53 | every output cue has at least one line, none of them blank, and no timing tag |
| Subtitles.DedupeIsDestutter | video2dataset/data_reader.py:38-53 | the kept lines read in order are the untagged cues' non-blank lines with adjacent repeats removed, across cue boundaries; a skipped cue does not reset the previous line |
| Subtitles.DestutterNoAdjacentRepeats | video2dataset/data_reader.py:49-51 | the dedupe never yields the same line twice in a row |
| Subtitles.DedupeFromOrigins | video2dataset/data_reader.py:38-53 | the entries correspond one to one, in strictly increasing input order, to the untagged cues that keep some line; each has its cue's timestamps and exactly the lines that cue keeps, given the last content line before it |
| Subtitles.SubToDict | video2dataset/data_reader.py:33-57 | without dedupe there is one entry per cue, with its timestamps; with dedupe there are no more entries than cues; every entry carries `line` exactly when `single` is set |
| Subtitles.SubToDictSingle | video2dataset/data_reader.py:54-56 | with `single` each entry has the timestamps of the entry returned without it, and `line` is that entry's `lines` joined with newlines |
| Subtitles.SubToDictPassThrough | video2dataset/data_reader.py:36-37 | without dedupe every cue passes through with all its lines, including blank and tagged ones |
| Subtitles.SubToDictDedupe | video2dataset/data_reader.py:38-53 | with dedupe the entries are the deduplicated cues, with their timestamps and lines, each with at least one line; the entries' lines read in order are the content lines with adjacent repeats removed |
| Subtitles.JoinedLineRoundTrip | video2dataset/data_reader.py:54-56 | the joined `line` splits back into the cue's lines when none of them holds a newline |
| Text.TrimStartSound | video2dataset/data_reader.py:184 | `lstrip` leaves a suffix, cuts only white space, and what it leaves does not start with white space |
| Text.TrimEndSound | video2dataset/data_reader.py:184 | `rstrip` leaves a prefix, cuts only white space, and what it leaves does not end with white space |
| Text.StripEmptyIffAllSpace | video2dataset/data_reader.py:47 | a string strips to nothing exactly when all of it is white space |
| Text.SplitPieces | examples/vatex_download.py:40 | no piece holds the separator, and there is a single piece exactly when the separator is absent |
| Text.JoinSplit | examples/vatex_download.py:40-46 | joining the pieces with the separator gives back the string |
| Text.SplitJoin | video2dataset/data_reader.py:184 | splitting a join of separator-free parts gives back the parts |
| Text.ParseIntDigits | examples/vatex_download.py:48-49 | a non-empty digit string parses to its decimal value |
| Text.LeadingZerosLost | examples/vatex_download.py:48-49 | a zero-padded digit string of two or more digits is not `str` of its value |
| Text.PadDigitsValue | video2dataset/data_reader.py:204-207 | a digit string is the zero-padded spelling of its own value at its own width |
| VatexWorker.TooFewParts | examples/vatex_download.py:40-42 | a `videoID` that splits into fewer than three parts does not parse |
| VatexWorker.SplitInfo | examples/vatex_download.py:40-46 | the last two parts hold no underscore, and id, start text and end text joined by underscores give back the `videoID` |
| VatexWorker.ParseVideoInfo | examples/vatex_download.py:35-54 | a parse rebuilds the `videoID` from its three parts and holds `int()` of both numbers; it fails exactly when there are fewer than three parts or either number does not parse |
| VatexWorker.SplitComposed | examples/vatex_download.py:40-46 | `<id>_<s>_<e>` splits back into `id`, `s` and `e` whenever `s` and `e` contain no underscore, even if `id` does |
| VatexWorker.ParseComposed | examples/vatex_download.py:35-49 | an id followed by two digit strings reads back as that id, the two texts and their values |
| VatexWorker.PaddingLost | examples/vatex_download.py:48-64 | the numbers are `int()` values, so a zero-padded start is not respelled as it was written |
| VatexWorker.FailureLabel | examples/vatex_download.py:54 | the label is the `videoID` when it is non-empty, otherwise `malformed_data:_` followed by the entry's text |
| VatexWorker.PathJoin | examples/vatex_download.py:57 | the joined path ends with the file name; an absolute name replaces the directory, and any other name follows it |
| VatexWorker.Command | examples/vatex_download.py:57-68 | the command has 11 arguments: the output template named after the whole `videoID`, the section `*<start>-<end>`, keyframe cuts, an mp4 remux, and the watch URL of the id last |
| VatexWorker.WorkerCommand | examples/vatex_download.py:35-68 | a command is built exactly when the key is present and the `videoID` parses |
| VatexWorker.DownloadWorker | examples/vatex_download.py:18-83 | a malformed entry fails with its fallback label and runs nothing; a well-formed one reports the run's success under its `videoID` |
| VatexWorker.ComposedCommand | examples/vatex_download.py:36-68 | an entry spelled `<id>_<digits>_<digits>` builds the section of those values and the watch URL of that id |
| VatexWorker.MissingKeyFails | examples/vatex_download.py:35-54 | an entry without `videoID` fails under `malformed_data:_` and its text, whatever the run would have done |
| VatexBatch.Queued | examples/vatex_download.py:109-125 | the queue holds exactly the entries that are not skipped, drawn from the catalog |
| VatexBatch.SkippedPlusQueued | examples/vatex_download.py:109-125 | every entry is skipped or queued, never both |
| VatexBatch.PreFilter | examples/vatex_download.py:109-125 | the scan loop produces the reference queue and skip count; an entry without the key is always queued |
| VatexBatch.SuccessesOrderFree | examples/vatex_download.py:138-147 | the success count does not depend on the order in which results arrive |
| VatexBatch.TallyOrderFree | examples/vatex_download.py:135-147 | any two arrival orders of the same results give the same tally |
| VatexBatch.CountResults | examples/vatex_download.py:135-147 | each result adds one to exactly one counter, and the counters equal the reference tally |
| VatexBatch.ProcessDownloads | examples/vatex_download.py:109-152 | an empty queue returns before any download; otherwise the summary counts every queued entry once, as a success or a failure, and skipped plus attempted is the catalog size |
| VatexBatch.SummaryInAnyOrder | examples/vatex_download.py:135-147 | counting the workers' results in any order in which they arrive gives the summary's success and failure counts |
| VatexBatch.NothingToDo | examples/vatex_download.py:127-130 | a catalog whose files all exist attempts nothing |
| VatexBatch.SuccessLeavesFile | examples/vatex_download.py:57-73 | a successful download leaves a file that the next scan's pattern matches |
| VatexBatch.SkippedOnRerun | examples/vatex_download.py:109-120 | after a run, a well-formed entry whose download succeeds is skipped by the next scan, whether its file was there before or was written by the run |
| VatexBatch.RerunSkipsAll | examples/vatex_download.py:109-130 | after a run in which every entry is well formed and succeeds, a rerun skips the whole catalog |
| VatexBatch.MainRun | examples/vatex_download.py:181-185 | a job count that is not positive exits with status 1 and the message before anything is scanned; any other count processes the catalog |

## Left out

- I/O is not modelled: HTTP requests, local file reads, temporary files and their UUID names, `os.remove` clean-up, and reading stream bytes. They are parameters (`WebIo`, `YtIo`, `RowIo`, `read`), or omitted when they have no effect on the result.
- WebVTT parsing (`webvtt.read_buffer`) is not modelled: `sub_to_dict` is modelled on cues that are already parsed.
- `get_yt_meta` and the `video2audio`/ffmpeg extraction are not modelled. Only their results enter the model, as inputs.
- yt-dlp itself is not modelled: how it interprets a selector, its download ranges and its remuxing. A selector is modelled as the datatype `FormatSelector.Selector` and rendered to the text yt-dlp receives, but what yt-dlp does with that text is not modelled; a download is modelled by its exit status and whether its output exists.
- Printed and logged messages, and the `tqdm` progress bars, have no effect on results and are left out. The yt-dlp downloader only prints a failed download's error; `AttemptError` computes it, and the outcome never carries it.
- `reading_config["timeout"]` and `reading_config["yt_args"]` are assumed to be present. A missing key would raise `KeyError` in the constructor, which is not modelled.
- YtDlpCall.NewDownloader: a `download_size` or `download_audio_rate` key that is present but holds `None` is not modelled, because `YtArgs` holds integers. In the source a `None` size is written into the video selector as `height>=None` and the call goes on; a `None` rate raises `TypeError` at the `> 0` comparison, which the reader turns into an error row.
- ClipLocator.IsIdChar: `\w` is taken over ASCII only. Python's `re` also matches non-ASCII letters and digits there, and `\d` matches non-ASCII digits.
- Text.ParseInt: `int()`'s underscores between digits and its non-ASCII digits are not accepted.
- Cookies.CookieFiles: a list setting is a list of strings. Non-string elements and truthiness of non-strings beyond the `truthy` flag are not modelled.
- VatexBatch.AlreadyDownloaded: `glob`'s metacharacters in a `videoID` and hidden files are not modelled. The match is a prefix test on the listed names in the output directory.
- VatexWorker.CatalogItem: a `videoID` that is not a string (on which `.split` would raise) is not modelled.
- Concurrency (`multiprocessing.Pool`, `imap_unordered`) is modelled only through its effect: the results arrive in some order that is a permutation of the queue's results.
- Loading the JSON catalog, its error exits, `argparse` and `os.makedirs` are left out. The catalog is given as a sequence of entries.
- The Modal launcher (`download_vatex_modal.py`) is not part of this model. Only its comma-joined cookie list is covered, by `Cookies.CookieListRoundTrip`.
- In `VideoDataReader.__call__`, a failure while reading or removing a produced file escapes the `try` and is not modelled.
- When the web-file drop loop raises, the temporary files it has not yet removed are left on disk. Files on disk are not modelled, so the model's error row does not record them.
- VatexBatch.WrittenNames: yt-dlp names the file it writes; the model takes the extension as a parameter and assumes the name is `<videoID>.<ext>`, which is all the pre-scan's `<videoID>.*` glob needs.

## Findings

| source | as written | input that shows it | evidently intended | confidence | as-written member | corrected member |
|---|---|---|---|---|---|---|
| video2dataset/data_reader.py:158-161 | the drop loop calls `modality_path.pop(modality)` on the path string, which raises `AttributeError`, so any produced modality that is not a key of `encode_formats` fails the whole row | URL `song.mp3` with `encode_formats = {"video": "mp4"}` | `modality_paths.pop(modality)`: drop the unrequested modality and return the rest | not executed | WebFile.Mp3WithVideoOnly | WebFile.DropUnrequested |

`WebFile.DropUnrequestedAsWritten` and `WebFile.WebFileDownloadAsWritten` model the loop as written. `WebFile.AsWrittenRaisesOnUnrequested` proves that it raises whenever the file's own modality is unrequested. The reader (`DataReader.ReadWebRow`, `DataReader.ReadRow`) is built on the downloader as written, so such a row comes back as the str-pop error row with no streams. The corrected `WebFile.WebFileDownload` states the intended behaviour, and `WebFile.AsWrittenAgreesWhenAllRequested` proves that the two agree whenever every produced modality is requested.

Two further consequences of the loop body:
- It would mutate `modality_paths` while iterating over it. With the intended `pop` in place, the next step of the iteration would raise `RuntimeError`.
- Only the file's own modality can be unrequested, because audio is added only when it is requested.

The corrected member therefore builds a new dictionary instead.

=== FILE: clip_locator.dfy ===
/** The clip locator `<11-char id>_<6 digits>_<6 digits>` recognised by
    `YtDlpDownloader.__call__` (video2dataset/data_reader.py:202-208): the
    regular expression `^([\w-]{11})_(\d{6})_(\d{6})$` and the rewrite of a
    matching locator to a watch URL. */
module ClipLocator {
  import opened Common
  import opened Text

  const WatchUrlPrefix := "https://www.youtube.com/watch?v="
  const IdLength := 11
  const FieldWidth := 6

  /** `[\w-]` over ASCII: letters, digits, `_` and `-`. */
  predicate IsIdChar(c: char) {
    ('a' <= c <= 'z') || ('A' <= c <= 'Z') || ('0' <= c <= '9') || c == '_' || c == '-'
  }

  predicate IsVideoId(id: string) {
    |id| == IdLength && forall i :: 0 <= i < |id| ==> IsIdChar(id[i])
  }

  /** A clip range in whole seconds. No order between the two is required. */
  datatype ClipSpan = ClipSpan(start: nat, end: nat)

  datatype ClipRef = ClipRef(videoId: string, span: ClipSpan)

  /** The values a locator can carry: an 11-character id and two numbers
      that fit in six digits. */
  predicate ValidRef(c: ClipRef) {
    IsVideoId(c.videoId) && c.span.start < Pow10(FieldWidth) && c.span.end < Pow10(FieldWidth)
  }

  /** The canonical spelling of a clip locator. */
  function FormatLocator(c: ClipRef): (s: string)
    requires ValidRef(c)
    ensures |s| == 25
  {
    c.videoId + "_" + PadDigits(c.span.start, FieldWidth) + "_" + PadDigits(c.span.end, FieldWidth)
  }

  /** The whole of `s` matches `([\w-]{11})_(\d{6})_(\d{6})`. */
  predicate MatchesPattern(s: string) {
    && |s| == 25
    && IsVideoId(s[..11])
    && s[11] == '_'
    && AllDigits(s[12..18])
    && s[18] == '_'
    && AllDigits(s[19..25])
  }

  /** `re.match` with a trailing `$`: the pattern must reach the end of the
      string or stop just before one final newline. Returns the matched text. */
  function MatchedText(url: string): (r: Option<string>)
    ensures r.Some? ==> MatchesPattern(r.value) && (url == r.value || url == r.value + "\n")
    ensures r.None? ==> !MatchesPattern(url) && !(|url| == 26 && url[25] == '\n' && MatchesPattern(url[..25]))
  {
    if MatchesPattern(url) then Some(url)
    else if |url| == 26 && url[25] == '\n' && MatchesPattern(url[..25]) then
      assert url == url[..25] + "\n";
      Some(url[..25])
    else None
  }

  /** The groups of the match, the two numbers taken by `int()`. */
  function ParseLocator(url: string): (r: Option<ClipRef>) {
    match MatchedText(url)
    case None => None
    case Some(m) => Some(ClipRef(m[..11], ClipSpan(DigitsValue(m[12..18]), DigitsValue(m[19..25]))))
  }

  /** What a successful parse gives is a valid locator whose canonical
      spelling is the URL, up to the newline `$` tolerates; a failed parse
      is exactly a failed match. */
  lemma ParseLocatorSound(url: string)
    ensures ParseLocator(url).None? <==> MatchedText(url).None?
    ensures ParseLocator(url).Some? ==>
      && ValidRef(ParseLocator(url).value)
      && (url == FormatLocator(ParseLocator(url).value) || url == FormatLocator(ParseLocator(url).value) + "\n")
  {
    if MatchedText(url).Some? {
      MatchSpelledBack(MatchedText(url).value);
    }
  }

  /** The groups of a matched text are a valid locator that spells it. */
  lemma MatchSpelledBack(m: string)
    requires MatchesPattern(m)
    ensures var c := ClipRef(m[..11], ClipSpan(DigitsValue(m[12..18]), DigitsValue(m[19..25])));
      ValidRef(c) && FormatLocator(c) == m
  {
    var start := m[12..18];
    var end := m[19..25];
    PadDigitsValue(start);
    PadDigitsValue(end);
    assert m == m[..11] + "_" + start + "_" + end;
  }

  /** Every canonical locator, with or without the newline `$` tolerates,
      parses back to the id and span it was built from, whatever the order
      of start and end. */
  lemma ParseFormatLocator(c: ClipRef)
    requires ValidRef(c)
    ensures ParseLocator(FormatLocator(c)) == Some(c)
    ensures ParseLocator(FormatLocator(c) + "\n") == Some(c)
  {
    var s := FormatLocator(c);
    var ps := PadDigits(c.span.start, FieldWidth);
    var pe := PadDigits(c.span.end, FieldWidth);
    assert s[..11] == c.videoId;
    assert s[12..18] == ps;
    assert s[19..25] == pe;
    assert MatchesPattern(s);
    assert (s + "\n")[..25] == s;
  }

  /** The downloader's view of a locator: the URL it passes to yt-dlp and the
      clip span, if any. */
  datatype Resolved = Resolved(target: string, span: Option<ClipSpan>)

  /** A matching locator becomes the watch URL of its id and carries its
      span; any other string is passed through untouched with no span. */
  function ResolveLocator(url: string): Resolved {
    match ParseLocator(url)
    case Some(c) => Resolved(WatchUrlPrefix + c.videoId, Some(c.span))
    case None => Resolved(url, None)
  }

  /** A URL the pattern does not match is passed through untouched, with no
      span; one it matches always gets a span. */
  lemma ResolveUnmatched(url: string)
    ensures MatchedText(url).None? ==> ResolveLocator(url) == Resolved(url, None)
    ensures ResolveLocator(url).span.None? <==> MatchedText(url).None?
  {
    ParseLocatorSound(url);
  }

  /** A canonical locator resolves to the watch URL of its id and carries
      its span, whatever the order of start and end (no `start < end` check). */
  lemma ResolveFormatLocator(c: ClipRef)
    requires ValidRef(c)
    ensures ResolveLocator(FormatLocator(c)) == Resolved(WatchUrlPrefix + c.videoId, Some(c.span))
  {
    ParseFormatLocator(c);
  }
}

=== FILE: common.dfy ===
/** Failure-carrying values shared by every module of the model. */
module Common {

  /** A value that may be absent (Python's `None`). */
  datatype Option<+T> = None | Some(value: T)

  /** The outcome of a call that may raise: `Err` carries `str(e)` of the exception. */
  datatype Result<+T> = Ok(value: T) | Err(message: string)
}

=== FILE: cookies.dfy ===
/** The cookie-file pool of `YtDlpDownloader` (video2dataset/data_reader.py:
    183-192, 219-222): how the `cookies_file` setting becomes an ordered list
    of files, and the round-robin cursor that picks one file per call. */
module Cookies {
  import opened Common
  import opened Text

  /** The Python value handed in as `cookies_file`. */
  datatype CookieSetting =
    | NoSetting                              // None
    | CommaSeparated(text: string)           // a str, e.g. "a.txt, b.txt"
    | FileList(files: seq<string>)           // a list
    | OtherValue(path: string, truthy: bool) // any other object, e.g. a path object or 0

  /** A name as the list keeps it: non-empty, no white space at either end. */
  predicate CleanName(s: string) {
    s != "" && Trimmed(s)
  }

  predicate AllClean(names: seq<string>) {
    forall i :: 0 <= i < |names| ==> CleanName(names[i])
  }

  lemma CleanCons(head: string, rest: seq<string>)
    requires CleanName(head) && AllClean(rest)
    ensures AllClean([head] + rest)
  {
    var names := [head] + rest;
    forall i | 0 <= i < |names|
      ensures CleanName(names[i])
    {
      if i > 0 {
        assert names[i] == rest[i - 1];
      }
    }
  }

  /** The stripped, non-empty pieces of `pieces`, in order. */
  function NonEmptyStripped(pieces: seq<string>): (r: seq<string>)
    ensures |r| <= |pieces|
    ensures AllClean(r)
  {
    if |pieces| == 0 then []
    else
      var head := Strip(pieces[0]);
      var rest := NonEmptyStripped(pieces[1..]);
      if head == "" then rest
      else
        CleanCons(head, rest);
        [head] + rest
  }

  /** No string of `pieces` holds `c`. */
  predicate LacksChar(pieces: seq<string>, c: char) {
    forall j :: 0 <= j < |pieces| ==> c !in pieces[j]
  }

  /** One step of `NonEmptyStripped`: a kept head lacks `c` too. */
  lemma KeepsOutStep(pieces: seq<string>, c: char)
    requires |pieces| > 0 && LacksChar(pieces, c)
    requires LacksChar(NonEmptyStripped(pieces[1..]), c)
    ensures LacksChar(NonEmptyStripped(pieces), c)
  {
    var head := Strip(pieces[0]);
    var rest := NonEmptyStripped(pieces[1..]);
    StripKeepsOut(pieces[0], c);
    if head != "" {
      var r := [head] + rest;
      assert NonEmptyStripped(pieces) == r;
      forall i | 0 <= i < |r|
        ensures c !in r[i]
      {
        if i > 0 {
          assert r[i] == rest[i - 1];
        }
      }
    }
  }

  /** A character no input piece holds is in no kept piece. */
  lemma {:induction false} NonEmptyStrippedKeepsOut(pieces: seq<string>, c: char)
    requires LacksChar(pieces, c)
    ensures LacksChar(NonEmptyStripped(pieces), c)
  {
    if |pieces| > 0 {
      NonEmptyStrippedKeepsOut(pieces[1..], c);
      KeepsOutStep(pieces, c);
    }
  }

  /** One piece: kept, stripped, exactly when it does not strip to nothing. */
  lemma NonEmptyStrippedOne(p: string)
    ensures NonEmptyStripped([p]) == (if Strip(p) == "" then [] else [Strip(p)])
  {
    assert [p][1..] == [];
  }

  /** The pieces are filtered one by one and in order: the result for a
      concatenation is the concatenation of the results. With
      `NonEmptyStrippedOne` this fixes the function for every input. */
  lemma {:induction false} NonEmptyStrippedAppend(a: seq<string>, b: seq<string>)
    ensures NonEmptyStripped(a + b) == NonEmptyStripped(a) + NonEmptyStripped(b)
    decreases |a|
  {
    if |a| == 0 {
      assert a + b == b;
    } else {
      NonEmptyStrippedAppend(a[1..], b);
      assert (a + b)[0] == a[0];
      assert (a + b)[1..] == a[1..] + b;
    }
  }

  /** `[c.strip() for c in text.split(",") if c.strip()]` */
  function SplitCookieList(text: string): (r: seq<string>)
    ensures AllClean(r) && LacksChar(r, ',')
  {
    var pieces := Split(text, ',');
    SplitPieces(text, ',');
    NonEmptyStrippedKeepsOut(pieces, ',');
    NonEmptyStripped(pieces)
  }

  /** The list `cookie_files` built from the setting. */
  function CookieFiles(setting: CookieSetting): (files: seq<string>)
    ensures setting.CommaSeparated? ==> AllClean(files) && LacksChar(files, ',')
    ensures setting.FileList? ==> files == setting.files
    ensures setting.OtherValue? ==> files == (if setting.truthy then [setting.path] else [])
    ensures setting.NoSetting? ==> files == []
  {
    match setting
    case CommaSeparated(text) => SplitCookieList(text)
    case FileList(fs) => fs
    case OtherValue(path, truthy) => if truthy then [path] else []
    case NoSetting => []
  }

  /** A comma-joined list of non-empty names without commas or surrounding
      white space (what the Modal launcher builds) parses back to the same
      list, in the same order. */
  lemma {:induction false} CookieListRoundTrip(names: seq<string>)
    requires AllClean(names) && LacksChar(names, ',')
    ensures CookieFiles(CommaSeparated(Join(names, ","))) == names
  {
    if |names| == 0 {
      // "" splits into one blank piece, which is dropped
      assert Split("", ',') == [""];
      NonEmptyStrippedOne("");
      assert Strip("") == "" by { StripEmptyIffAllSpace(""); }
    } else {
      CookieListOfPieces(names);
      KeepsCleanNames(names);
    }
  }

  /** Any comma-joined pieces parse to their stripped, non-empty pieces, in
      order: with `NonEmptyStrippedOne` and `NonEmptyStrippedAppend` this
      gives the files of every comma-separated setting. */
  lemma CookieListOfPieces(pieces: seq<string>)
    requires |pieces| >= 1 && LacksChar(pieces, ',')
    ensures CookieFiles(CommaSeparated(Join(pieces, ","))) == NonEmptyStripped(pieces)
  {
    SplitJoin(pieces, ',');
  }

  /** A space after the comma is stripped, and the order is kept. */
  lemma CookieListSpaced()
    ensures CookieFiles(CommaSeparated("a.txt, b.txt")) == ["a.txt", "b.txt"]
  {
    SpacedPieces();
    SpacedNames();
  }

  lemma SpacedPieces()
    ensures Split("a.txt, b.txt", ',') == ["a.txt", " b.txt"]
  {
    SpacedText();
    SplitAfterPiece("a.txt", " b.txt", ',');
    SplitWithoutSep(" b.txt", ',');
  }

  lemma SpacedText()
    ensures "a.txt, b.txt" == "a.txt" + [','] + " b.txt"
  {
  }

  lemma SpacedNames()
    ensures NonEmptyStripped(["a.txt", " b.txt"]) == ["a.txt", "b.txt"]
  {
    assert TrimStart(" b.txt") == TrimStart("b.txt");
    assert ["a.txt", " b.txt"] == ["a.txt"] + [" b.txt"];
    NonEmptyStrippedAppend(["a.txt"], [" b.txt"]);
    NonEmptyStrippedOne("a.txt");
    NonEmptyStrippedOne(" b.txt");
  }

  /** A blank piece between two commas is dropped. */
  lemma CookieListBlankPiece()
    ensures CookieFiles(CommaSeparated("a, ,b")) == ["a", "b"]
  {
    BlankPieces();
    BlankNames();
  }

  lemma BlankPieces()
    ensures Split("a, ,b", ',') == ["a", " ", "b"]
  {
    BlankText();
    SplitAfterPiece("a", " ,b", ',');
    SplitAfterPiece(" ", "b", ',');
    SplitWithoutSep("b", ',');
  }

  lemma BlankText()
    ensures "a, ,b" == "a" + [','] + " ,b"
    ensures " ,b" == " " + [','] + "b"
  {
  }

  lemma BlankNames()
    ensures NonEmptyStripped(["a", " ", "b"]) == ["a", "b"]
  {
    assert Strip(" ") == "" by { StripEmptyIffAllSpace(" "); }
    assert ["a", " ", "b"] == ["a"] + ([" "] + ["b"]);
    NonEmptyStrippedAppend([" "], ["b"]);
    NonEmptyStrippedAppend(["a"], [" ", "b"]);
    NonEmptyStrippedOne("a");
    NonEmptyStrippedOne(" ");
    NonEmptyStrippedOne("b");
  }

  /** Names that are already stripped and non-empty are all kept, unchanged. */
  lemma {:induction false} KeepsCleanNames(names: seq<string>)
    requires AllClean(names)
    ensures NonEmptyStripped(names) == names
  {
    if |names| > 0 {
      KeepsCleanNames(names[1..]);
      KeepsCleanHead(names);
    }
  }

  /** The step of `KeepsCleanNames`: a clean head is kept as it is. */
  lemma KeepsCleanHead(names: seq<string>)
    requires |names| > 0 && CleanName(names[0])
    requires NonEmptyStripped(names[1..]) == names[1..]
    ensures NonEmptyStripped(names) == names
  {
    StripUnchanged(names[0]);
    assert [names[0]] + names[1..] == names;
  }

  /** The pool: the files and the cursor `cookie_index`. */
  datatype CookiePool = CookiePool(files: seq<string>, cursor: nat)

  /** A fresh downloader's pool: the cursor starts at zero. */
  function NewPool(setting: CookieSetting): (p: CookiePool)
    ensures p.cursor == 0 && p.files == CookieFiles(setting)
  {
    CookiePool(CookieFiles(setting), 0)
  }

  /** One call's pick: with files, the one under the cursor (modulo the pool
      size), after which the cursor moves on by one; with none, nothing and
      the pool is unchanged. */
  function TakeCookie(pool: CookiePool): (r: (Option<string>, CookiePool))
    ensures r.1.files == pool.files
    ensures |pool.files| > 0 ==> r.0 == Some(pool.files[pool.cursor % |pool.files|]) && r.1.cursor == pool.cursor + 1
    ensures |pool.files| == 0 ==> r.0 == None && r.1 == pool
  {
    if |pool.files| > 0 then
      (Some(pool.files[pool.cursor % |pool.files|]), pool.(cursor := pool.cursor + 1))
    else
      (None, pool)
  }

  /** The picks of `n` successive calls, and the pool they leave. */
  function TakeMany(pool: CookiePool, n: nat): (r: (seq<Option<string>>, CookiePool))
    ensures |r.0| == n
    decreases n
  {
    if n == 0 then ([], pool)
    else
      var (first, next) := TakeCookie(pool);
      var (rest, last) := TakeMany(next, n - 1);
      ([first] + rest, last)
  }

  /** The pick a pool of `files` makes with its cursor at `cursor`. */
  function PickAt(files: seq<string>, cursor: nat): Option<string> {
    if |files| > 0 then Some(files[cursor % |files|]) else None
  }

  /** The `k`-th of `picks` is the pick at `cursor + k`: successive picks go
      round the files in order, wrapping at the end. */
  predicate RoundRobin(picks: seq<Option<string>>, files: seq<string>, cursor: nat) {
    forall k :: 0 <= k < |picks| ==> picks[k] == PickAt(files, cursor + k)
  }

  /** A pick at the cursor followed by round-robin picks from the next
      cursor is round robin from the cursor. */
  lemma RoundRobinCons(first: Option<string>, rest: seq<Option<string>>, files: seq<string>, cursor: nat)
    requires first == PickAt(files, cursor) && RoundRobin(rest, files, cursor + 1)
    ensures RoundRobin([first] + rest, files, cursor)
  {
    var picks := [first] + rest;
    forall k | 0 <= k < |picks|
      ensures picks[k] == PickAt(files, cursor + k)
    {
      if k > 0 {
        assert picks[k] == rest[k - 1];
        assert cursor + 1 + (k - 1) == cursor + k;
      }
    }
  }

  /** What `n` picks promise: round robin from the cursor, which ends `n`
      further on; with no files the pool never changes. */
  predicate TakesRoundRobin(pool: CookiePool, n: nat) {
    var (picks, last) := TakeMany(pool, n);
    && last.files == pool.files
    && (|pool.files| > 0 ==> last.cursor == pool.cursor + n)
    && (|pool.files| == 0 ==> last == pool)
    && RoundRobin(picks, pool.files, pool.cursor)
  }

  /** The inductive step of `TakeManyRoundRobin`. */
  lemma TakesRoundRobinStep(pool: CookiePool, n: nat)
    requires n > 0 && TakesRoundRobin(TakeCookie(pool).1, n - 1)
    ensures TakesRoundRobin(pool, n)
  {
    var (first, next) := TakeCookie(pool);
    assert first == PickAt(pool.files, pool.cursor);
    assert TakeMany(pool, n).0 == [first] + TakeMany(next, n - 1).0;
    if |pool.files| > 0 {
      assert next.cursor == pool.cursor + 1;
    } else {
      assert next == pool;
    }
    RoundRobinCons(first, TakeMany(next, n - 1).0, pool.files, pool.cursor);
  }

  /** Round robin: the `k`-th of `n` calls picks `files[(cursor + k) % len]`,
      and the cursor ends `n` further on; with no files nothing is picked and
      the cursor never moves. */
  lemma {:induction false} TakeManyRoundRobin(pool: CookiePool, n: nat)
    ensures TakeMany(pool, n).1.files == pool.files
    ensures |pool.files| > 0 ==> TakeMany(pool, n).1.cursor == pool.cursor + n
    ensures |pool.files| == 0 ==> TakeMany(pool, n).1 == pool
    ensures RoundRobin(TakeMany(pool, n).0, pool.files, pool.cursor)
    decreases n
  {
    if n > 0 {
      TakeManyRoundRobin(TakeCookie(pool).1, n - 1);
      TakesRoundRobinStep(pool, n);
    }
  }

  /** From a fresh pool the picks run `files[0], files[1], ...` and wrap. */
  lemma FreshPoolRoundRobin(files: seq<string>, n: nat)
    requires |files| > 0
    ensures forall k :: 0 <= k < n ==> TakeMany(CookiePool(files, 0), n).0[k] == Some(files[k % |files|])
  {
    TakeManyRoundRobin(CookiePool(files, 0), n);
    var picks := TakeMany(CookiePool(files, 0), n).0;
    forall k | 0 <= k < n
      ensures picks[k] == Some(files[k % |files|])
    {
      assert picks[k] == PickAt(files, 0 + k);
    }
  }

  /** `if cookie_file:` — an empty file name is not passed to yt-dlp. */
  function CookieOption(pick: Option<string>): (r: Option<string>)
    ensures r.Some? <==> pick.Some? && pick.value != ""
    ensures r.Some? ==> r == pick
  {
    if pick.Some? && pick.value != "" then pick else None
  }
}

=== FILE: data_reader.dfy ===
/** `VideoDataReader` (video2dataset/data_reader.py:301-328): which
    downloader a row goes to, how its failures are folded into the row's
    result, and how the produced files become the row's streams. */
module DataReader {
  import opened Common
  import opened Text
  import opened FileInfo
  import opened WebFile
  import opened ClipLocator
  import opened Cookies
  import opened YtDlpCall

  type Bytes = seq<bv8>

  /** The `reading_config` keys the reader uses. `cookiesFile` is
      `NoSetting` when the key is missing or holds `None`. */
  datatype ReadingConfig = ReadingConfig(timeout: int, ytArgs: YtArgs, cookiesFile: CookieSetting)

  /** A reader: its yt-dlp downloader with the cookie pool. The web-file
      downloader is built from the same `encode_formats`, so they are kept
      once, in `yt`. */
  datatype Reader = Reader(yt: Downloader)

  /** `VideoDataReader.__init__`: a cookie setting given to the reader wins
      over the one in the configuration, unless it is `None`. */
  function NewReader(encodeFormats: map<Modality, string>, config: ReadingConfig, cookiesFile: CookieSetting): (r: Reader)
    ensures r.yt.encodeFormats == encodeFormats
    ensures r.yt.pool.cursor == 0
    ensures !cookiesFile.NoSetting? ==> r.yt.pool.files == CookieFiles(cookiesFile)
    ensures cookiesFile.NoSetting? ==> r.yt.pool.files == CookieFiles(config.cookiesFile)
    ensures r.yt.videoSize == NewDownloader(config.ytArgs, encodeFormats, NoSetting).videoSize
    ensures r.yt.audioRate == NewDownloader(config.ytArgs, encodeFormats, NoSetting).audioRate
  {
    var cookies := if cookiesFile.NoSetting? then config.cookiesFile else cookiesFile;
    Reader(NewDownloader(config.ytArgs, encodeFormats, cookies))
  }

  /** What the outside world answers while one row is read. */
  datatype RowIo = RowIo(web: WebIo, yt: YtIo, audioPath: string, videoPath: string)

  /** `(key, streams, meta_dict, error_message)` */
  datatype RowResult = RowResult(key: string, streams: map<Modality, Bytes>, meta: Option<MetaDict>, error: Option<string>)

  /** Reading every produced file into the row's streams. */
  function ReadStreams(paths: map<Modality, string>, read: string -> Bytes): (streams: map<Modality, Bytes>)
    ensures streams.Keys == paths.Keys
    ensures forall m :: m in streams ==> streams[m] == read(paths[m])
  {
    map m | m in paths :: read(paths[m])
  }

  /** Whether a row goes to the web-file downloader. */
  predicate IsWebFile(url: string) {
    GetFileInfo(url).Some?
  }

  /** A row of the web-file downloader, with the drop loop as written: a
      raised exception, the str-pop error included, becomes the error
      message with no streams; the reader is left as it was. */
  function ReadWebRow(reader: Reader, key: string, url: string, io: WebIo, read: string -> Bytes): (r: RowResult)
    ensures r.key == key && r.meta.None?
    ensures WebFileDownloadAsWritten(url, reader.yt.encodeFormats, io).Err? ==>
      r.streams == map[] && r.error == Some(WebFileDownloadAsWritten(url, reader.yt.encodeFormats, io).message)
    ensures WebFileDownloadAsWritten(url, reader.yt.encodeFormats, io).Ok? ==>
      && r.error.None?
      && r.streams == ReadStreams(Assemble(url, reader.yt.encodeFormats, io).value, read)
    ensures r.streams.Keys <= reader.yt.encodeFormats.Keys
  {
    match WebFileDownloadAsWritten(url, reader.yt.encodeFormats, io)
    case Err(e) => RowResult(key, map[], None, Some(e))
    case Ok(paths) => RowResult(key, ReadStreams(paths, read), None, None)
  }

  /** A row of the yt-dlp downloader: it never raises, returns metadata,
      and takes one cookie pick. */
  function ReadYtRow(reader: Reader, key: string, url: string, io: RowIo, read: string -> Bytes): (r: (RowResult, Reader))
    ensures var call := YtDlpDownload(reader.yt, url, io.audioPath, io.videoPath, io.yt);
      && r.0.key == key
      && r.1 == reader.(yt := call.1)
      && r.0.meta == Some(call.0.outcome.meta)
      && r.0.error.None?
      && r.0.streams == ReadStreams(call.0.outcome.paths, read)
    ensures forall m :: m in r.0.streams ==> Requested(reader.yt.encodeFormats, m)
    ensures r.1.yt.pool == TakeCookie(reader.yt.pool).1
  {
    var step := YtDlpDownload(reader.yt, url, io.audioPath, io.videoPath, io.yt);
    var streams := ReadStreams(step.0.outcome.paths, read);
    KeptAreRequested(reader.yt, url, io.audioPath, io.videoPath, io.yt);
    (RowResult(key, streams, Some(step.0.outcome.meta), step.0.outcome.error), reader.(yt := step.1))
  }

  /** `VideoDataReader.__call__((key, url))`, with `read` giving the bytes
      of each produced file: a URL with a known media extension goes to the
      web-file downloader, any other to yt-dlp. Returns the row's result and
      the reader the next row sees. */
  function ReadRow(reader: Reader, key: string, url: string, io: RowIo, read: string -> Bytes): (r: (RowResult, Reader))
    ensures r.0.key == key
    // a direct file never touches the yt-dlp downloader or its cookie pool
    ensures IsWebFile(url) ==> r.1 == reader && r.0.meta.None?
    ensures IsWebFile(url) ==> (r.0.error.Some? <==> WebFileDownloadAsWritten(url, reader.yt.encodeFormats, io.web).Err?)
    ensures IsWebFile(url) && r.0.error.Some? ==> r.0.streams == map[]
    // a fetched file whose own modality is not requested fails the row
    ensures (IsWebFile(url) && Assemble(url, reader.yt.encodeFormats, io.web).Ok?
             && GetFileInfo(url).value.modality !in reader.yt.encodeFormats) ==>
      r.0.error == Some(StrPopMessage) && r.0.streams == map[]
    // any other URL goes to yt-dlp, which takes one cookie pick and never errors
    ensures !IsWebFile(url) ==>
      && r.1.yt.pool == TakeCookie(reader.yt.pool).1
      && r.0.meta.Some?
      && r.0.error.None?
    // the streams are the bytes of the files the chosen downloader kept
    ensures IsWebFile(url) && WebFileDownloadAsWritten(url, reader.yt.encodeFormats, io.web).Ok? ==>
      r.0.streams == ReadStreams(WebFileDownloadAsWritten(url, reader.yt.encodeFormats, io.web).value, read)
    ensures !IsWebFile(url) ==>
      var call := YtDlpDownload(reader.yt, url, io.audioPath, io.videoPath, io.yt);
      && r.0.streams == ReadStreams(call.0.outcome.paths, read)
      && r.0.meta == Some(call.0.outcome.meta)
      && r.1 == reader.(yt := call.1)
    ensures forall m :: m in r.0.streams ==> m in reader.yt.encodeFormats
  {
    if IsWebFile(url) then (ReadWebRow(reader, key, url, io.web, read), reader)
    else ReadYtRow(reader, key, url, io, read)
  }

  /** A locator ends with a digit field, or with the newline after it, so
      it never ends with `.` and a three- or four-letter extension. */
  lemma LocatorHasNoExtension(url: string, m: string, ext: string)
    requires MatchesPattern(m) && (url == m || url == m + "\n")
    requires 3 <= |ext| <= 4 && ext[|ext| - 1] != '\n'
    ensures !HasExtension(url, ext)
  {
    var dotted := "." + ext;
    var p := |url| - |dotted|;
    if url == m {
      // the dot would fall inside the last digit field
      assert m[19..25][p - 19] == url[p];
      assert url[p..][0] != dotted[0];
    } else {
      // the last character is the newline, which ends no extension
      assert url[p..][|dotted| - 1] != dotted[|dotted| - 1];
    }
  }

  /** A matched locator ends with none of the known extensions. */
  lemma MatchedIsNotWebFile(url: string)
    requires MatchedText(url).Some?
    ensures NoneMatch(url, VideoExtensions) && NoneMatch(url, AudioExtensions)
  {
    var m := MatchedText(url).value;
    LocatorHasNoExtension(url, m, "mp4");
    LocatorHasNoExtension(url, m, "webm");
    LocatorHasNoExtension(url, m, "mov");
    LocatorHasNoExtension(url, m, "avi");
    LocatorHasNoExtension(url, m, "mkv");
    LocatorHasNoExtension(url, m, "mp3");
    LocatorHasNoExtension(url, m, "wav");
    LocatorHasNoExtension(url, m, "m4a");
  }

  /** A clip locator never looks like a direct file: it always goes to
      yt-dlp, with or without the trailing newline `$` tolerates. */
  lemma LocatorIsNotWebFile(url: string)
    requires ParseLocator(url).Some?
    ensures !IsWebFile(url)
  {
    MatchedIsNotWebFile(url);
  }

  /** One input row with what the outside world answers for it. */
  datatype Row = Row(key: string, url: string, io: RowIo)

  /** Successive rows read by one reader. */
  function ReadRows(reader: Reader, rows: seq<Row>, read: string -> Bytes): (r: (seq<RowResult>, Reader))
    ensures |r.0| == |rows|
    decreases |rows|
  {
    if |rows| == 0 then ([], reader)
    else
      var first := ReadRow(reader, rows[0].key, rows[0].url, rows[0].io, read);
      var rest := ReadRows(first.1, rows[1..], read);
      ([first.0] + rest.0, rest.1)
  }

  /** How many rows go to yt-dlp. */
  function YtRowCount(rows: seq<Row>): (n: nat)
    ensures n <= |rows|
    decreases |rows|
  {
    if |rows| == 0 then 0
    else (if IsWebFile(rows[0].url) then 0 else 1) + YtRowCount(rows[1..])
  }

  /** The cookie cursor moves once per yt-dlp row and never for a direct
      file; the encode formats and the cookie files never change. */
  lemma {:induction false} ReadRowsCursor(reader: Reader, rows: seq<Row>, read: string -> Bytes)
    ensures ReadRows(reader, rows, read).1.yt.pool.files == reader.yt.pool.files
    ensures ReadRows(reader, rows, read).1.yt.encodeFormats == reader.yt.encodeFormats
    ensures |reader.yt.pool.files| > 0 ==> ReadRows(reader, rows, read).1.yt.pool.cursor == reader.yt.pool.cursor + YtRowCount(rows)
    ensures |reader.yt.pool.files| == 0 ==> ReadRows(reader, rows, read).1.yt.pool == reader.yt.pool
    decreases |rows|
  {
    if |rows| > 0 {
      var first := ReadRow(reader, rows[0].key, rows[0].url, rows[0].io, read);
      ReadRowsCursor(first.1, rows[1..], read);
    }
  }
}

=== FILE: file_info.dfy ===
/** Direct-file classification of a URL by its extension
    (`get_file_info` in video2dataset/data_reader.py). */
module FileInfo {
  import opened Common
  import opened Text

  /** The two media modalities a row can yield. */
  datatype Modality = Video | Audio

  /** `encode_formats.get(m, None)` is truthy: the modality is requested with
      a non-empty target format. */
  predicate Requested(encodeFormats: map<Modality, string>, m: Modality) {
    m in encodeFormats && encodeFormats[m] != ""
  }

  /** What `get_file_info` returns: the matched extension and its modality. */
  datatype FileKind = FileKind(ext: string, modality: Modality)

  const VideoExtensions: seq<string> := ["mp4", "webm", "mov", "avi", "mkv"]
  const AudioExtensions: seq<string> := ["mp3", "wav", "m4a"]

  function ExtensionsOf(m: Modality): seq<string> {
    match m
    case Video => VideoExtensions
    case Audio => AudioExtensions
  }

  /** `url.endswith(f".{ext}")` */
  predicate HasExtension(url: string, ext: string) {
    EndsWith(url, "." + ext)
  }

  predicate NoneMatch(url: string, exts: seq<string>) {
    forall i :: 0 <= i < |exts| ==> !HasExtension(url, exts[i])
  }

  /** The first extension of `exts`, in order, that `url` ends with. */
  function FirstExtension(url: string, exts: seq<string>): (r: Option<string>)
    ensures r.Some? ==> r.value in exts && HasExtension(url, r.value)
    ensures r.Some? ==> exists k :: 0 <= k < |exts| && exts[k] == r.value && NoneMatch(url, exts[..k])
    ensures r.None? <==> NoneMatch(url, exts)
  {
    if |exts| == 0 then None
    else if HasExtension(url, exts[0]) then
      assert NoneMatch(url, exts[..0]);
      Some(exts[0])
    else
      var r := FirstExtension(url, exts[1..]);
      if r.Some? then
        var k :| 0 <= k < |exts[1..]| && exts[1..][k] == r.value && NoneMatch(url, exts[1..][..k]);
        assert exts[..k + 1] == [exts[0]] + exts[1..][..k];
        r
      else
        r
  }

  /** `get_file_info(url)`: the video extensions are tried before the audio
      ones; `None` when the URL ends with none of them. */
  function GetFileInfo(url: string): (r: Option<FileKind>)
    ensures r.Some? ==> HasExtension(url, r.value.ext)
    ensures r.Some? ==> r.value.ext in ExtensionsOf(r.value.modality)
    ensures r.Some? && r.value.modality == Audio ==> NoneMatch(url, VideoExtensions)
    ensures r.None? <==> NoneMatch(url, VideoExtensions) && NoneMatch(url, AudioExtensions)
  {
    match FirstExtension(url, VideoExtensions)
    case Some(ext) => Some(FileKind(ext, Video))
    case None =>
      match FirstExtension(url, AudioExtensions)
      case Some(ext) => Some(FileKind(ext, Audio))
      case None => None
  }

  /** Two suffixes of one string: the shorter is a suffix of the longer. */
  lemma SuffixOfSuffix(url: string, x: string, y: string)
    requires EndsWith(url, x) && EndsWith(url, y) && |x| <= |y|
    ensures EndsWith(y, x)
  {
    assert y[|y| - |x|..] == url[|url| - |x|..];
  }

  /** No URL ends with two of the known extensions, so the order in which
      they are tried never changes the answer. */
  lemma ExtensionsExclusive(url: string, a: string, b: string)
    requires a in VideoExtensions + AudioExtensions && b in VideoExtensions + AudioExtensions
    requires HasExtension(url, a) && HasExtension(url, b)
    ensures a == b
  {
    assert '.' !in a && '.' !in b;
    if |a| <= |b| {
      SuffixOfSuffix(url, "." + a, "." + b);
      if |a| == |b| {
        assert a == ("." + a)[1..] && b == ("." + b)[1..];
      }
    } else {
      SuffixOfSuffix(url, "." + b, "." + a);
    }
  }

  /** The classifier returns the one known extension the URL ends with, and
      its modality, whenever there is one. */
  lemma GetFileInfoComplete(url: string, ext: string, m: Modality)
    requires ext in ExtensionsOf(m) && HasExtension(url, ext)
    ensures GetFileInfo(url) == Some(FileKind(ext, m))
  {
    var r := GetFileInfo(url);
    var i :| 0 <= i < |ExtensionsOf(m)| && ExtensionsOf(m)[i] == ext;
    assert HasExtension(url, ExtensionsOf(m)[i]);
    ExtensionsExclusive(url, ext, r.value.ext);
    if m == Video {
      assert !NoneMatch(url, VideoExtensions);
    }
  }
}

=== FILE: format_selector.dfy ===
/** The yt-dlp format selectors built by `YtDlpDownloader.__call__`
    (video2dataset/data_reader.py:210-217). A selector is a `/`-separated
    chain of alternatives, tried by yt-dlp from left to right. */
module FormatSelector {
  import opened Text

  const CodecFilter := "[codec=avc1]"

  /** The codec filter appended when `specify_codec` is set. */
  function CodecSuffix(specifyCodec: bool): string {
    if specifyCodec then CodecFilter else ""
  }

  /** A selector before it is written out: the video one for a target
      height, or the audio one for a target sample rate. */
  datatype Selector = VideoSelector(height: int, specifyCodec: bool) | AudioSelector(rate: int)

  /** The text handed to yt-dlp as `format`. */
  function SelectorText(sel: Selector): string {
    match sel
    case VideoSelector(height, specifyCodec) => VideoFormat(height, specifyCodec)
    case AudioSelector(rate) => AudioFormat(rate)
  }

  /** The video selector for a target height: the four alternatives of the
      source's f-string, joined by `/`. */
  function VideoFormat(height: int, specifyCodec: bool): string {
    var h := IntToString(height);
    var codec := CodecSuffix(specifyCodec);
    Join(["wv*[height>=" + h + "][ext=mp4]" + codec,
          "w[height>=" + h + "][ext=mp4]" + codec,
          "bv",
          "b[ext=mp4]" + codec], "/")
  }

  /** The audio selector for a target sample rate. */
  function AudioFormat(rate: int): string {
    if rate > 0 then "wa[asr>=" + IntToString(rate) + "][ext=m4a] / ba[ext=m4a]" else "ba[ext=m4a]"
  }

  lemma NoSlashInNumber(n: int)
    ensures '/' !in IntToString(n)
  {
  }

  /** The video selector is exactly four alternatives, in this order: the
      best video-only mp4 at least `height` tall, the best combined mp4 at
      least that tall, the best video-only stream, the best combined mp4; the
      codec filter ends alternatives one, two and four, and only when asked. */
  lemma VideoFormatAlternatives(height: int, specifyCodec: bool)
    ensures Split(VideoFormat(height, specifyCodec), '/') == [
      "wv*[height>=" + IntToString(height) + "][ext=mp4]" + CodecSuffix(specifyCodec),
      "w[height>=" + IntToString(height) + "][ext=mp4]" + CodecSuffix(specifyCodec),
      "bv",
      "b[ext=mp4]" + CodecSuffix(specifyCodec)]
  {
    var h := IntToString(height);
    var codec := CodecSuffix(specifyCodec);
    var alts := ["wv*[height>=" + h + "][ext=mp4]" + codec, "w[height>=" + h + "][ext=mp4]" + codec, "bv", "b[ext=mp4]" + codec];
    NoSlashInNumber(height);
    assert '/' !in codec;
    assert forall i :: 0 <= i < |alts| ==> '/' !in alts[i];
    SplitJoin(alts, '/');
  }

  /** With a positive rate the audio selector is two alternatives, the best
      audio-only m4a at or above the rate and then the best m4a audio; with
      any other rate it is that fallback alone. */
  lemma AudioFormatAlternatives(rate: int)
    ensures rate > 0 ==> Split(AudioFormat(rate), '/') == ["wa[asr>=" + IntToString(rate) + "][ext=m4a] ", " ba[ext=m4a]"]
    ensures rate <= 0 ==> Split(AudioFormat(rate), '/') == ["ba[ext=m4a]"]
  {
    if rate > 0 {
      var alts := ["wa[asr>=" + IntToString(rate) + "][ext=m4a] ", " ba[ext=m4a]"];
      NoSlashInNumber(rate);
      assert Join(alts, "/") == AudioFormat(rate) by {
        assert Join(alts[1..], "/") == alts[1];
      }
      SplitJoin(alts, '/');
    } else {
      SplitJoin(["ba[ext=m4a]"], '/');
    }
  }
}

=== FILE: subtitles.dfy ===
/** `sub_to_dict` (video2dataset/data_reader.py:33-57) over cues that are
    already parsed: the optional removal of karaoke cues, blank lines and
    repeated lines, and the optional joining of a cue's lines into one. */
module Subtitles {
  import opened Common
  import opened Text

  /** One WebVTT cue as the parser gives it: timestamps kept as text. */
  datatype Cue = Cue(start: string, end: string, lines: seq<string>)

  /** The text of an output entry: the `lines` list, or the single `line`
      the lines were joined into. */
  datatype CaptionText = Lines(lines: seq<string>) | Joined(line: string)

  /** One dictionary of the result. */
  datatype Caption = Caption(start: string, end: string, text: CaptionText)

  const TimingTag := "<c>"

  /** A cue with a word-timing tag on some line; such cues are skipped. */
  predicate HasTimingTag(c: Cue) {
    exists i | 0 <= i < |c.lines| :: Contains(c.lines[i], TimingTag)
  }

  /** `not line.strip()`: the line is white space only. */
  predicate IsBlank(line: string) {
    AllSpace(line)
  }

  /** `IsBlank` is the source's test: a line is blank exactly when it strips
      to nothing. */
  lemma IsBlankIffStripsEmpty(line: string)
    ensures IsBlank(line) <==> Strip(line) == ""
  {
    StripEmptyIffAllSpace(line);
  }

  /** The non-blank lines of `lines`, in order. */
  function NonBlank(lines: seq<string>): (r: seq<string>)
    ensures |r| <= |lines|
    ensures forall i :: 0 <= i < |r| ==> !IsBlank(r[i]) && r[i] in lines
  {
    if |lines| == 0 then []
    else if IsBlank(lines[0]) then NonBlank(lines[1..])
    else [lines[0]] + NonBlank(lines[1..])
  }

  /** The last element of `s`, or `prev` when `s` is empty. */
  function LastOr(s: seq<string>, prev: Option<string>): Option<string> {
    if |s| == 0 then prev else Some(s[|s| - 1])
  }

  // ---------------------------------------------------------------------------
  // The reference: drop every element equal to the one before it
  // ---------------------------------------------------------------------------

  /** `s` without the elements equal to their predecessor, where `prev` is
      taken as the element before the first. */
  function DestutterAfter(s: seq<string>, prev: Option<string>): seq<string>
    decreases |s|
  {
    if |s| == 0 then []
    else (if Some(s[0]) == prev then [] else [s[0]]) + DestutterAfter(s[1..], Some(s[0]))
  }

  /** Adjacent repeats removed from a whole sequence. */
  function Destutter(s: seq<string>): seq<string> {
    DestutterAfter(s, None)
  }

  lemma {:induction false} DestutterAfterAppend(a: seq<string>, b: seq<string>, prev: Option<string>)
    ensures DestutterAfter(a + b, prev) == DestutterAfter(a, prev) + DestutterAfter(b, LastOr(a, prev))
    decreases |a|
  {
    if |a| > 0 {
      DestutterAfterAppend(a[1..], b, Some(a[0]));
      assert (a + b)[1..] == a[1..] + b;
      assert LastOr(a[1..], Some(a[0])) == LastOr(a, prev);
    } else {
      assert a + b == b;
    }
  }

  // ---------------------------------------------------------------------------
  // The dedupe loop
  // ---------------------------------------------------------------------------

  /** The inner loop over one cue's lines: blank lines are skipped, a line
      equal to the previous line is dropped, and every non-blank line becomes
      the previous line, kept or not. Returns the kept lines and the new
      previous line. */
  function KeepLines(lines: seq<string>, prev: Option<string>): (r: (seq<string>, Option<string>))
    ensures |r.0| <= |lines|
    ensures forall i :: 0 <= i < |r.0| ==> !IsBlank(r.0[i]) && r.0[i] in lines
    decreases |lines|
  {
    if |lines| == 0 then ([], prev)
    else if IsBlank(lines[0]) then KeepLines(lines[1..], prev)
    else
      var (rest, last) := KeepLines(lines[1..], Some(lines[0]));
      if Some(lines[0]) != prev then ([lines[0]] + rest, last) else (rest, last)
  }

  /** The lines one cue keeps are its non-blank lines with repeats removed,
      and the previous line afterwards is its last non-blank line. */
  lemma {:induction false} KeepLinesIsDestutter(lines: seq<string>, prev: Option<string>)
    ensures KeepLines(lines, prev).0 == DestutterAfter(NonBlank(lines), prev)
    ensures KeepLines(lines, prev).1 == LastOr(NonBlank(lines), prev)
    decreases |lines|
  {
    if |lines| > 0 {
      if IsBlank(lines[0]) {
        KeepLinesIsDestutter(lines[1..], prev);
      } else {
        KeepLinesIsDestutter(lines[1..], Some(lines[0]));
        KeepLinesStep(lines, prev);
      }
    }
  }

  /** The step of `KeepLinesIsDestutter` for a non-blank first line. */
  lemma KeepLinesStep(lines: seq<string>, prev: Option<string>)
    requires |lines| > 0 && !IsBlank(lines[0])
    requires KeepLines(lines[1..], Some(lines[0])).0 == DestutterAfter(NonBlank(lines[1..]), Some(lines[0]))
    requires KeepLines(lines[1..], Some(lines[0])).1 == LastOr(NonBlank(lines[1..]), Some(lines[0]))
    ensures KeepLines(lines, prev).0 == DestutterAfter(NonBlank(lines), prev)
    ensures KeepLines(lines, prev).1 == LastOr(NonBlank(lines), prev)
  {
    var l := lines[0];
    var tail := KeepLines(lines[1..], Some(l));
    var rest := NonBlank(lines[1..]);
    var nb := NonBlank(lines);
    assert nb == [l] + rest;
    assert nb[1..] == rest;
    assert DestutterAfter(nb, prev) == (if Some(l) == prev then [] else [l]) + DestutterAfter(rest, Some(l));
    assert KeepLines(lines, prev) == (if Some(l) != prev then [l] + tail.0 else tail.0, tail.1);
    assert LastOr(nb, prev) == LastOr(rest, Some(l));
  }

  /** The outer loop from a given previous line. */
  function DedupeFrom(cues: seq<Cue>, prev: Option<string>): (r: seq<Cue>)
    ensures |r| <= |cues|
    ensures forall i :: 0 <= i < |r| ==> |r[i].lines| > 0 && !HasTimingTag(r[i])
    ensures forall i, j :: 0 <= i < |r| && 0 <= j < |r[i].lines| ==> !IsBlank(r[i].lines[j])
    decreases |cues|
  {
    if |cues| == 0 then []
    else if HasTimingTag(cues[0]) then DedupeFrom(cues[1..], prev)
    else
      var (kept, last) := KeepLines(cues[0].lines, prev);
      var rest := DedupeFrom(cues[1..], last);
      if |kept| > 0 then
        assert !HasTimingTag(Cue(cues[0].start, cues[0].end, kept)) by {
          forall i | 0 <= i < |kept|
            ensures !Contains(kept[i], TimingTag)
          {
            var j :| 0 <= j < |cues[0].lines| && cues[0].lines[j] == kept[i];
          }
        }
        [Cue(cues[0].start, cues[0].end, kept)] + rest
      else rest
  }

  /** The lines of cues without a timing tag, blank lines dropped, in order. */
  function ContentLines(cues: seq<Cue>): seq<string>
    decreases |cues|
  {
    if |cues| == 0 then []
    else if HasTimingTag(cues[0]) then ContentLines(cues[1..])
    else NonBlank(cues[0].lines) + ContentLines(cues[1..])
  }

  /** All lines of a sequence of cues, in order. */
  function Flatten(cues: seq<Cue>): seq<string>
    decreases |cues|
  {
    if |cues| == 0 then [] else cues[0].lines + Flatten(cues[1..])
  }

  /** What the dedupe keeps, read line by line, is the content lines with
      adjacent repeats removed: a repeat is dropped even across cues, and a
      skipped cue does not reset the previous line. */
  lemma {:induction false} DedupeIsDestutter(cues: seq<Cue>, prev: Option<string>)
    ensures Flatten(DedupeFrom(cues, prev)) == DestutterAfter(ContentLines(cues), prev)
    decreases |cues|
  {
    if |cues| > 0 && !HasTimingTag(cues[0]) {
      var (kept, last) := KeepLines(cues[0].lines, prev);
      KeepLinesIsDestutter(cues[0].lines, prev);
      DedupeIsDestutter(cues[1..], last);
      DestutterAfterAppend(NonBlank(cues[0].lines), ContentLines(cues[1..]), prev);
      if |kept| > 0 {
        var c := Cue(cues[0].start, cues[0].end, kept);
        assert DedupeFrom(cues, prev) == [c] + DedupeFrom(cues[1..], last);
        assert ([c] + DedupeFrom(cues[1..], last))[1..] == DedupeFrom(cues[1..], last);
      }
    } else if |cues| > 0 {
      DedupeIsDestutter(cues[1..], prev);
    }
  }

  /** The dedupe never produces the same line twice in a row. */
  lemma {:induction false} DestutterNoAdjacentRepeats(s: seq<string>, prev: Option<string>)
    ensures var d := DestutterAfter(s, prev);
      forall i :: 0 <= i < |d| - 1 ==> d[i] != d[i + 1]
    ensures |DestutterAfter(s, prev)| > 0 ==> Some(DestutterAfter(s, prev)[0]) != prev
    decreases |s|
  {
    if |s| > 0 {
      DestutterNoAdjacentRepeats(s[1..], Some(s[0]));
    }
  }

  /** The previous line when the loop reaches cue `j`: the last content line
      before it, or `prev` when there is none. */
  function PrevAt(cues: seq<Cue>, prev: Option<string>, j: nat): Option<string>
    requires j <= |cues|
  {
    LastOr(ContentLines(cues[..j]), prev)
  }

  /** The lines cue `j` keeps, given the previous line on reaching it. */
  function KeptAt(cues: seq<Cue>, prev: Option<string>, j: nat): seq<string>
    requires j < |cues|
  {
    DestutterAfter(NonBlank(cues[j].lines), PrevAt(cues, prev, j))
  }

  /** Cue `j` yields an entry: it has no timing tag and keeps some line. */
  predicate Emits(cues: seq<Cue>, prev: Option<string>, j: nat)
    requires j < |cues|
  {
    !HasTimingTag(cues[j]) && |KeptAt(cues, prev, j)| > 0
  }

  /** Each entry of `r` is the entry of the cue `idx` names: that cue's
      timestamps and exactly the lines it keeps. */
  predicate EntriesFrom(r: seq<Cue>, cues: seq<Cue>, prev: Option<string>, idx: seq<nat>) {
    && |idx| == |r|
    && forall i :: 0 <= i < |idx| ==>
         && idx[i] < |cues|
         && Emits(cues, prev, idx[i])
         && r[i] == Cue(cues[idx[i]].start, cues[idx[i]].end, KeptAt(cues, prev, idx[i]))
  }

  predicate Increasing(idx: seq<nat>) {
    forall i, k :: 0 <= i < k < |idx| ==> idx[i] < idx[k]
  }

  /** Every cue that yields an entry is named. */
  predicate CoversEmitting(cues: seq<Cue>, prev: Option<string>, idx: seq<nat>) {
    forall j :: 0 <= j < |cues| && Emits(cues, prev, j) ==> j in idx
  }

  /** `idx` maps the entries of `r` to the cues they come from: one entry
      per emitting cue, in strictly increasing cue order, with that cue's
      timestamps and exactly its kept lines. */
  predicate SourcedBy(r: seq<Cue>, cues: seq<Cue>, prev: Option<string>, idx: seq<nat>) {
    EntriesFrom(r, cues, prev, idx) && Increasing(idx) && CoversEmitting(cues, prev, idx)
  }

  /** The previous line after the first cue. */
  function NextPrev(c: Cue, prev: Option<string>): Option<string> {
    if HasTimingTag(c) then prev else LastOr(NonBlank(c.lines), prev)
  }

  lemma LastOrAppend(a: seq<string>, b: seq<string>, prev: Option<string>)
    ensures LastOr(a + b, prev) == LastOr(b, LastOr(a, prev))
  {
    if |b| > 0 {
      assert (a + b)[|a + b| - 1] == b[|b| - 1];
    } else {
      assert a + b == a;
    }
  }

  /** Reaching cue `j + 1` of `cues` is reaching cue `j` of the rest, after
      the first cue has set the previous line. */
  lemma PrevAtShift(cues: seq<Cue>, prev: Option<string>, j: nat)
    requires |cues| > 0 && j < |cues|
    ensures PrevAt(cues, prev, j + 1) == PrevAt(cues[1..], NextPrev(cues[0], prev), j)
  {
    var pre := cues[..j + 1];
    assert pre[0] == cues[0];
    assert pre[1..] == cues[1..][..j];
    if HasTimingTag(cues[0]) {
      assert ContentLines(pre) == ContentLines(cues[1..][..j]);
    } else {
      assert ContentLines(pre) == NonBlank(cues[0].lines) + ContentLines(cues[1..][..j]);
      LastOrAppend(NonBlank(cues[0].lines), ContentLines(cues[1..][..j]), prev);
    }
  }

  /** `KeptAt` and `Emits` of a later cue read the same from the rest. */
  lemma KeptAtShift(cues: seq<Cue>, prev: Option<string>, j: nat)
    requires |cues| > 0 && j < |cues| - 1
    ensures KeptAt(cues, prev, j + 1) == KeptAt(cues[1..], NextPrev(cues[0], prev), j)
    ensures Emits(cues, prev, j + 1) == Emits(cues[1..], NextPrev(cues[0], prev), j)
  {
    PrevAtShift(cues, prev, j);
    assert cues[j + 1] == cues[1..][j];
  }

  /** The first cue, reached with `prev` itself. */
  lemma KeptAtFirst(cues: seq<Cue>, prev: Option<string>)
    requires |cues| > 0
    ensures KeptAt(cues, prev, 0) == DestutterAfter(NonBlank(cues[0].lines), prev)
  {
    assert cues[..0] == [];
  }

  /** Cue indices moved one place on. */
  function Shift(idx: seq<nat>): (r: seq<nat>)
    ensures |r| == |idx|
    ensures forall i :: 0 <= i < |idx| ==> r[i] == idx[i] + 1
  {
    seq(|idx|, i requires 0 <= i < |idx| => idx[i] + 1)
  }

  /** Entries of the rest are entries of the whole, one cue further on. */
  lemma EntriesShift(r: seq<Cue>, cues: seq<Cue>, prev: Option<string>, idx: seq<nat>)
    requires |cues| > 0
    requires EntriesFrom(r, cues[1..], NextPrev(cues[0], prev), idx)
    ensures EntriesFrom(r, cues, prev, Shift(idx))
  {
    var sh := Shift(idx);
    forall i | 0 <= i < |sh|
      ensures sh[i] < |cues| && Emits(cues, prev, sh[i])
      ensures r[i] == Cue(cues[sh[i]].start, cues[sh[i]].end, KeptAt(cues, prev, sh[i]))
    {
      KeptAtShift(cues, prev, idx[i]);
      assert cues[sh[i]] == cues[1..][idx[i]];
    }
  }

  /** A later emitting cue is covered once the rest's cues are. */
  lemma CoversShift(cues: seq<Cue>, prev: Option<string>, idx: seq<nat>)
    requires |cues| > 0
    requires CoversEmitting(cues[1..], NextPrev(cues[0], prev), idx)
    ensures forall j :: 0 < j < |cues| && Emits(cues, prev, j) ==> j in Shift(idx)
  {
    var sh := Shift(idx);
    forall j | 0 < j < |cues| && Emits(cues, prev, j)
      ensures j in sh
    {
      KeptAtShift(cues, prev, j - 1);
      var i :| 0 <= i < |idx| && idx[i] == j - 1;
      assert sh[i] == j;
    }
  }

  /** The step of `DedupeFromOrigins` when the first cue yields nothing. */
  lemma SourcedSkip(r: seq<Cue>, cues: seq<Cue>, prev: Option<string>, idx: seq<nat>)
    requires |cues| > 0 && !Emits(cues, prev, 0)
    requires SourcedBy(r, cues[1..], NextPrev(cues[0], prev), idx)
    ensures SourcedBy(r, cues, prev, Shift(idx))
  {
    EntriesShift(r, cues, prev, idx);
    CoversShift(cues, prev, idx);
    IncreasingShift(idx);
  }

  lemma IncreasingShift(idx: seq<nat>)
    requires Increasing(idx)
    ensures Increasing(Shift(idx)) && Increasing([0] + Shift(idx))
  {
    var sh := Shift(idx);
    var all := [0] + sh;
    forall i, k | 0 <= i < k < |all|
      ensures all[i] < all[k]
    {
      assert all[k] == idx[k - 1] + 1;
      if i > 0 {
        assert all[i] == idx[i - 1] + 1;
      }
    }
  }

  /** The step of `DedupeFromOrigins` when the first cue yields an entry. */
  lemma SourcedEmit(c: Cue, r: seq<Cue>, cues: seq<Cue>, prev: Option<string>, idx: seq<nat>)
    requires |cues| > 0 && Emits(cues, prev, 0)
    requires c == Cue(cues[0].start, cues[0].end, KeptAt(cues, prev, 0))
    requires SourcedBy(r, cues[1..], NextPrev(cues[0], prev), idx)
    ensures SourcedBy([c] + r, cues, prev, [0] + Shift(idx))
  {
    var sh := Shift(idx);
    EntriesShift(r, cues, prev, idx);
    EntriesCons(c, r, cues, prev, sh);
    IncreasingShift(idx);
    CoversShift(cues, prev, idx);
    CoversCons(cues, prev, sh);
  }

  lemma CoversCons(cues: seq<Cue>, prev: Option<string>, sh: seq<nat>)
    requires forall j :: 0 < j < |cues| && Emits(cues, prev, j) ==> j in sh
    ensures CoversEmitting(cues, prev, [0] + sh)
  {
    forall j | 0 <= j < |cues| && Emits(cues, prev, j)
      ensures j in [0] + sh
    {
      if j > 0 {
        assert j in sh;
      }
    }
  }

  /** Putting the first cue's entry in front of entries from later cues. */
  lemma EntriesCons(c: Cue, r: seq<Cue>, cues: seq<Cue>, prev: Option<string>, sh: seq<nat>)
    requires |cues| > 0 && Emits(cues, prev, 0)
    requires c == Cue(cues[0].start, cues[0].end, KeptAt(cues, prev, 0))
    requires EntriesFrom(r, cues, prev, sh)
    ensures EntriesFrom([c] + r, cues, prev, [0] + sh)
  {
    var all := [0] + sh;
    var out := [c] + r;
    forall i | 1 <= i < |all|
      ensures out[i] == r[i - 1] && all[i] == sh[i - 1]
    {
    }
  }

  /** The entries are the emitting cues, each once, in input order, with
      their own timestamps and exactly the lines they keep: the dedupe
      neither splits, merges nor reorders cues. */
  lemma {:induction false} DedupeFromOrigins(cues: seq<Cue>, prev: Option<string>)
    ensures exists idx :: SourcedBy(DedupeFrom(cues, prev), cues, prev, idx)
    decreases |cues|
  {
    if |cues| == 0 {
      assert DedupeFrom(cues, prev) == [];
      assert SourcedBy([], cues, prev, []);
    } else {
      var next := NextPrev(cues[0], prev);
      var rest := DedupeFrom(cues[1..], next);
      DedupeFromOrigins(cues[1..], next);
      var idx :| SourcedBy(rest, cues[1..], next, idx);
      KeptAtFirst(cues, prev);
      if HasTimingTag(cues[0]) {
        assert DedupeFrom(cues, prev) == rest;
        SourcedSkip(rest, cues, prev, idx);
        assert SourcedBy(DedupeFrom(cues, prev), cues, prev, Shift(idx));
      } else {
        KeepLinesIsDestutter(cues[0].lines, prev);
        var kept := KeepLines(cues[0].lines, prev).0;
        if |kept| > 0 {
          var c := Cue(cues[0].start, cues[0].end, kept);
          SourcedEmit(c, rest, cues, prev, idx);
          assert DedupeFrom(cues, prev) == [c] + rest;
        } else {
          assert DedupeFrom(cues, prev) == rest;
          SourcedSkip(rest, cues, prev, idx);
        }
      }
    }
  }

  // ---------------------------------------------------------------------------
  // sub_to_dict
  // ---------------------------------------------------------------------------

  function AsCaption(c: Cue, single: bool): Caption {
    Caption(c.start, c.end, if single then Joined(Join(c.lines, "\n")) else Lines(c.lines))
  }

  /** `sub_to_dict(sub, dedupe, single)` on the parsed cues of `sub`. */
  function SubToDict(cues: seq<Cue>, dedupe: bool, single: bool): (r: seq<Caption>)
    ensures !dedupe ==> |r| == |cues|
    ensures !dedupe ==> forall i :: 0 <= i < |r| ==> r[i].start == cues[i].start && r[i].end == cues[i].end
    ensures dedupe ==> |r| <= |cues|
    ensures forall i :: 0 <= i < |r| ==> r[i].text.Joined? == single
  {
    var kept := if dedupe then DedupeFrom(cues, None) else cues;
    seq(|kept|, i requires 0 <= i < |kept| => AsCaption(kept[i], single))
  }

  /** `single` changes only the text: each entry's `line` is its `lines`,
      as the call without `single` returns them, joined with newlines. */
  lemma SubToDictSingle(cues: seq<Cue>, dedupe: bool)
    ensures |SubToDict(cues, dedupe, true)| == |SubToDict(cues, dedupe, false)|
    ensures forall i :: 0 <= i < |SubToDict(cues, dedupe, true)| ==>
      var listed := SubToDict(cues, dedupe, false)[i];
      var joined := SubToDict(cues, dedupe, true)[i];
      && listed.text.Lines?
      && joined.start == listed.start && joined.end == listed.end
      && joined.text == Joined(Join(listed.text.lines, "\n"))
  {
    var kept := if dedupe then DedupeFrom(cues, None) else cues;
    assert forall i :: 0 <= i < |kept| ==>
      SubToDict(cues, dedupe, true)[i] == AsCaption(kept[i], true)
      && SubToDict(cues, dedupe, false)[i] == AsCaption(kept[i], false);
  }

  /** Without dedupe every cue comes through with all its lines, blank or
      tagged ones included. */
  lemma SubToDictPassThrough(cues: seq<Cue>)
    ensures forall i :: 0 <= i < |cues| ==> SubToDict(cues, false, false)[i].text == Lines(cues[i].lines)
  {
    var r := SubToDict(cues, false, false);
    assert forall i :: 0 <= i < |cues| ==> r[i] == AsCaption(cues[i], false);
  }

  /** With dedupe every entry has at least one line, none of them blank or
      in a tagged cue, and the entries' lines read in order are the content
      lines of the input with adjacent repeats removed. */
  lemma SubToDictDedupe(cues: seq<Cue>)
    ensures var r := SubToDict(cues, true, false);
      && |r| == |DedupeFrom(cues, None)|
      && forall i :: 0 <= i < |r| ==>
           var c := DedupeFrom(cues, None)[i];
           r[i].start == c.start && r[i].end == c.end && r[i].text == Lines(c.lines) && |c.lines| > 0
    ensures Flatten(DedupeFrom(cues, None)) == Destutter(ContentLines(cues))
  {
    var kept := DedupeFrom(cues, None);
    var r := SubToDict(cues, true, false);
    assert forall i :: 0 <= i < |r| ==> r[i] == AsCaption(kept[i], false);
    DedupeIsDestutter(cues, None);
  }

  /** The joined `line` splits back into the lines it was made from, as long
      as no line holds a newline (the WebVTT parser never gives one). */
  lemma JoinedLineRoundTrip(c: Cue)
    requires |c.lines| >= 1
    requires forall i :: 0 <= i < |c.lines| ==> '\n' !in c.lines[i]
    ensures AsCaption(c, true).text.Joined?
    ensures Split(AsCaption(c, true).text.line, '\n') == c.lines
  {
    SplitJoin(c.lines, '\n');
  }
}

=== FILE: text.dfy ===
/** The parts of Python's `str` behaviour the model relies on: `strip()`,
    `split(sep)`, `sep.join(parts)`, `startswith`/`endswith`/`in`, `str(int)`
    and `int(str)`. */
module Text {
  import opened Common

  // ---------------------------------------------------------------------------
  // Prefixes, suffixes, substrings
  // ---------------------------------------------------------------------------

  predicate StartsWith(s: string, prefix: string) {
    |prefix| <= |s| && s[..|prefix|] == prefix
  }

  predicate EndsWith(s: string, suffix: string) {
    |suffix| <= |s| && s[|s| - |suffix|..] == suffix
  }

  /** `pattern` occurs in `s` starting at index `i`. */
  predicate OccursAt(s: string, pattern: string, i: int) {
    0 <= i <= |s| - |pattern| && s[i..i + |pattern|] == pattern
  }

  /** `pattern in s` */
  predicate Contains(s: string, pattern: string) {
    exists i | 0 <= i <= |s| :: OccursAt(s, pattern, i)
  }

  // ---------------------------------------------------------------------------
  // Whitespace and str.strip()
  // ---------------------------------------------------------------------------

  /** Python's `str.isspace` for one character: the ASCII controls 9-13 and
      28-31, the space, and the Unicode separators Python counts as white. */
  predicate IsSpace(c: char) {
    || ('\t' <= c <= '\r')
    || ('\U{1C}' <= c <= '\U{1F}')
    || c == ' '
    || c == '\U{85}'
    || c == '\U{A0}'
    || c == '\U{1680}'
    || ('\U{2000}' <= c <= '\U{200A}')
    || c == '\U{2028}'
    || c == '\U{2029}'
    || c == '\U{202F}'
    || c == '\U{205F}'
    || c == '\U{3000}'
  }

  predicate AllSpace(s: string) {
    forall i :: 0 <= i < |s| ==> IsSpace(s[i])
  }

  /** `s.lstrip()`: the suffix of `s` left after dropping every leading space. */
  function TrimStart(s: string): string {
    if |s| > 0 && IsSpace(s[0]) then TrimStart(s[1..]) else s
  }

  /** What `lstrip` leaves: a suffix, only white space cut, no white space first. */
  lemma {:induction false} TrimStartSound(s: string)
    ensures |TrimStart(s)| <= |s| && TrimStart(s) == s[|s| - |TrimStart(s)|..]
    ensures AllSpace(s[..|s| - |TrimStart(s)|])
    ensures TrimStart(s) == [] || !IsSpace(TrimStart(s)[0])
    decreases |s|
  {
    if |s| > 0 && IsSpace(s[0]) {
      var t := s[1..];
      var r := TrimStart(t);
      TrimStartSound(t);
      assert TrimStart(s) == r;
      assert t[|t| - |r|..] == s[|s| - |r|..];
      assert s[..|s| - |r|] == [s[0]] + t[..|t| - |r|];
    }
  }

  /** `s.rstrip()`: the prefix of `s` left after dropping every trailing space. */
  function TrimEnd(s: string): string {
    if |s| > 0 && IsSpace(s[|s| - 1]) then TrimEnd(s[..|s| - 1]) else s
  }

  /** What `rstrip` leaves: a prefix, only white space cut, no white space last. */
  lemma {:induction false} TrimEndSound(s: string)
    ensures |TrimEnd(s)| <= |s| && TrimEnd(s) == s[..|TrimEnd(s)|]
    ensures AllSpace(s[|TrimEnd(s)|..])
    ensures TrimEnd(s) == [] || !IsSpace(TrimEnd(s)[|TrimEnd(s)| - 1])
    decreases |s|
  {
    if |s| > 0 && IsSpace(s[|s| - 1]) {
      var init := s[..|s| - 1];
      var r := TrimEnd(init);
      TrimEndSound(init);
      assert init[..|r|] == s[..|r|];
      assert s[|r|..] == init[|r|..] + [s[|s| - 1]];
    }
  }

  /** Neither end of `s` is white space. */
  predicate Trimmed(s: string) {
    s == [] || (!IsSpace(s[0]) && !IsSpace(s[|s| - 1]))
  }

  /** `s.strip()` */
  function Strip(s: string): (r: string)
    ensures Trimmed(r)
  {
    var t := TrimStart(s);
    var r := TrimEnd(t);
    TrimStartSound(s);
    TrimEndSound(t);
    assert r != [] ==> r[0] == t[0];
    r
  }

  /** `not s.strip()`: a string strips to nothing exactly when every
      character of it is white space. */
  lemma StripEmptyIffAllSpace(s: string)
    ensures Strip(s) == [] <==> AllSpace(s)
  {
    var t := TrimStart(s);
    TrimStartSound(s);
    TrimEndSound(t);
    if Strip(s) == [] {
      assert t[|TrimEnd(t)|..] == t;
      assert s == s[..|s| - |t|] + t;
    }
  }

  /** Stripping leaves a string alone when neither end is white. */
  lemma StripUnchanged(s: string)
    requires Trimmed(s)
    ensures Strip(s) == s
  {
  }

  /** Stripping adds no character: one absent from `s` is absent from `s.strip()`. */
  lemma StripKeepsOut(s: string, c: char)
    requires c !in s
    ensures c !in Strip(s)
  {
    TrimStartSound(s);
    TrimEndSound(TrimStart(s));
  }

  // ---------------------------------------------------------------------------
  // str.split(sep) and sep.join(parts)
  // ---------------------------------------------------------------------------

  /** `sep.join(parts)` */
  function Join(parts: seq<string>, sep: string): string
    decreases |parts|
  {
    if |parts| == 0 then ""
    else if |parts| == 1 then parts[0]
    else parts[0] + sep + Join(parts[1..], sep)
  }

  /** `s.split(sep)` for a one-character separator: never empty, keeps empty
      pieces, and no piece holds the separator. */
  function Split(s: string, sep: char): (parts: seq<string>)
    ensures |parts| >= 1
    decreases |s|
  {
    if |s| == 0 then [""]
    else
      var rest := Split(s[1..], sep);
      if s[0] == sep then [""] + rest
      else [[s[0]] + rest[0]] + rest[1..]
  }

  /** No piece holds the separator, and there is more than one piece
      exactly when the separator occurs. */
  lemma {:induction false} SplitPieces(s: string, sep: char)
    ensures forall i :: 0 <= i < |Split(s, sep)| ==> sep !in Split(s, sep)[i]
    ensures |Split(s, sep)| == 1 <==> sep !in s
    decreases |s|
  {
    if |s| > 0 {
      SplitPieces(s[1..], sep);
      var rest := Split(s[1..], sep);
      assert s == [s[0]] + s[1..];
      if s[0] != sep {
        var parts := Split(s, sep);
        assert parts[0] == [s[0]] + rest[0];
        assert forall i :: 1 <= i < |parts| ==> parts[i] == rest[i];
      }
    }
  }

  /** Joining the pieces back with the separator restores the string. */
  lemma {:induction false} JoinSplit(s: string, sep: char)
    ensures Join(Split(s, sep), [sep]) == s
    decreases |s|
  {
    if |s| > 0 {
      var rest := Split(s[1..], sep);
      JoinSplit(s[1..], sep);
      if s[0] == sep {
        assert Split(s, sep) == [""] + rest;
        assert Join([""] + rest, [sep]) == [sep] + Join(rest, [sep]);
      } else {
        var parts := Split(s, sep);
        assert parts == [[s[0]] + rest[0]] + rest[1..];
        if |rest| == 1 {
          assert Join(parts, [sep]) == [s[0]] + rest[0];
        } else {
          assert Join(rest, [sep]) == rest[0] + [sep] + Join(rest[1..], [sep]);
          assert Join(parts, [sep]) == [s[0]] + rest[0] + [sep] + Join(rest[1..], [sep]);
        }
        assert s == [s[0]] + s[1..];
      }
    }
  }

  /** Splitting at a separator the left part does not contain adds the left
      part as one more piece in front. */
  lemma {:induction false} SplitAfterPiece(a: string, b: string, sep: char)
    requires sep !in a
    ensures Split(a + [sep] + b, sep) == [a] + Split(b, sep)
    decreases |a|
  {
    if |a| == 0 {
      assert a + [sep] + b == [sep] + b;
      assert ([sep] + b)[1..] == b;
    } else {
      SplitAfterPiece(a[1..], b, sep);
      assert (a + [sep] + b)[1..] == a[1..] + [sep] + b;
      assert [a[0]] + a[1..] == a;
    }
  }

  /** A string without the separator is one piece. */
  lemma SplitWithoutSep(s: string, sep: char)
    requires sep !in s
    ensures Split(s, sep) == [s]
  {
    SplitPieces(s, sep);
    JoinSplit(s, sep);
  }

  /** Splitting a string whose first character is `c`: the pieces of the
      rest, with `c` opening a new piece or joining the first one. */
  lemma SplitCons(c: char, t: string, sep: char)
    ensures Split([c] + t, sep) ==
      if c == sep then [""] + Split(t, sep)
      else [[c] + Split(t, sep)[0]] + Split(t, sep)[1..]
  {
    assert ([c] + t)[1..] == t;
  }

  /** The inductive step of `SplitAtSep`, for a left part `[c] + a`. */
  lemma SplitAtSepStep(c: char, a: string, b: string, sep: char)
    requires Split(a + [sep] + b, sep) == Split(a, sep) + Split(b, sep)
    ensures Split([c] + a + [sep] + b, sep) == Split([c] + a, sep) + Split(b, sep)
  {
    var whole := a + [sep] + b;
    assert [c] + a + [sep] + b == [c] + whole;
    if c == sep {
      SplitSepStep(c, a, b, sep);
    } else {
      SplitCharStep(c, a, b, sep);
    }
  }

  /** The step when the first character is the separator: a new empty piece. */
  lemma SplitSepStep(c: char, a: string, b: string, sep: char)
    requires c == sep
    requires Split(a + [sep] + b, sep) == Split(a, sep) + Split(b, sep)
    ensures Split([c] + (a + [sep] + b), sep) == Split([c] + a, sep) + Split(b, sep)
  {
    SplitCons(c, a + [sep] + b, sep);
    SplitCons(c, a, sep);
  }

  /** The step when the first character is not the separator: it joins the
      first piece. */
  lemma SplitCharStep(c: char, a: string, b: string, sep: char)
    requires c != sep
    requires Split(a + [sep] + b, sep) == Split(a, sep) + Split(b, sep)
    ensures Split([c] + (a + [sep] + b), sep) == Split([c] + a, sep) + Split(b, sep)
  {
    var left := Split(a, sep);
    var right := Split(b, sep);
    SplitCons(c, a + [sep] + b, sep);
    SplitCons(c, a, sep);
    ConsHead([c], left, right);
  }

  /** Extending the first piece of a concatenation extends the first piece
      of its left part. */
  lemma ConsHead(c: string, left: seq<string>, right: seq<string>)
    requires |left| >= 1
    ensures [c + (left + right)[0]] + (left + right)[1..] == ([c + left[0]] + left[1..]) + right
  {
    assert (left + right)[1..] == left[1..] + right;
  }

  /** Splitting at one occurrence of the separator: the pieces of the left
      part followed by the pieces of the right part. */
  lemma {:induction false} SplitAtSep(a: string, b: string, sep: char)
    ensures Split(a + [sep] + b, sep) == Split(a, sep) + Split(b, sep)
    decreases |a|
  {
    if |a| == 0 {
      assert a + [sep] + b == [sep] + b;
      SplitCons(sep, b, sep);
    } else {
      SplitAtSep(a[1..], b, sep);
      SplitAtSepStep(a[0], a[1..], b, sep);
      assert [a[0]] + a[1..] == a;
    }
  }

  /** `sep.join(parts).split(sep) == parts` when no part holds the separator
      and there is at least one part. */
  lemma {:induction false} SplitJoin(parts: seq<string>, sep: char)
    requires |parts| >= 1
    requires forall i :: 0 <= i < |parts| ==> sep !in parts[i]
    ensures Split(Join(parts, [sep]), sep) == parts
    decreases |parts|
  {
    if |parts| > 1 {
      assert Join(parts, [sep]) == parts[0] + [sep] + Join(parts[1..], [sep]);
      assert sep !in parts[0];
      SplitJoin(parts[1..], sep);
      SplitAfterPiece(parts[0], Join(parts[1..], [sep]), sep);
      assert [parts[0]] + parts[1..] == parts;
    } else {
      JoinSplit(parts[0], sep);
    }
  }

  /** A join splits into the join of any prefix and the join of the rest. */
  lemma {:induction false} JoinSplitsAt(parts: seq<string>, sep: string, k: nat)
    requires 1 <= k < |parts|
    ensures Join(parts, sep) == Join(parts[..k], sep) + sep + Join(parts[k..], sep)
    decreases k
  {
    if k > 1 {
      JoinSplitsAt(parts[1..], sep, k - 1);
      assert parts[1..][..k - 1] == parts[..k][1..];
      assert parts[1..][k - 1..] == parts[k..];
    }
  }

  // ---------------------------------------------------------------------------
  // Decimal digits, str(int) and int(str)
  // ---------------------------------------------------------------------------

  predicate IsDigit(c: char) {
    '0' <= c <= '9'
  }

  predicate AllDigits(s: string) {
    forall i :: 0 <= i < |s| ==> IsDigit(s[i])
  }

  function DigitValue(c: char): (d: nat)
    requires IsDigit(c)
    ensures d < 10
  {
    (c as int) - ('0' as int)
  }

  function DigitChar(d: nat): (c: char)
    requires d < 10
    ensures IsDigit(c) && DigitValue(c) == d
  {
    (('0' as int) + d) as char
  }

  /** The value of a string of decimal digits, most significant first. */
  function DigitsValue(s: string): nat
    requires AllDigits(s)
  {
    if |s| == 0 then 0
    else DigitsValue(s[..|s| - 1]) * 10 + DigitValue(s[|s| - 1])
  }

  function Pow10(n: nat): (p: nat)
    ensures p >= 1
  {
    if n == 0 then 1 else 10 * Pow10(n - 1)
  }

  /** A leading zero adds nothing to the value. */
  lemma {:induction false} LeadingZeroValue(s: string)
    requires AllDigits(s)
    ensures DigitsValue("0" + s) == DigitsValue(s)
    decreases |s|
  {
    if |s| > 0 {
      LeadingZeroValue(s[..|s| - 1]);
      assert ("0" + s)[..|s|] == "0" + s[..|s| - 1];
    }
  }

  /** `n` digits never spell a value of `10^n` or more. */
  lemma {:induction false} DigitsValueBound(s: string)
    requires AllDigits(s)
    ensures DigitsValue(s) < Pow10(|s|)
    decreases |s|
  {
    if |s| > 0 {
      DigitsValueBound(s[..|s| - 1]);
    }
  }

  /** `str(n)` for `n >= 0`: the shortest decimal spelling of `n`. */
  function NatToString(n: nat): (r: string)
    ensures |r| >= 1 && AllDigits(r)
    ensures DigitsValue(r) == n
    ensures r[0] == '0' ==> n == 0 && r == "0"
    decreases n
  {
    if n < 10 then [DigitChar(n)]
    else
      var r := NatToString(n / 10) + [DigitChar(n % 10)];
      assert r[..|r| - 1] == NatToString(n / 10);
      r
  }

  /** A digit or a minus sign is not white space. */
  lemma DigitNotSpace(c: char)
    requires IsDigit(c) || c == '-'
    ensures !IsSpace(c)
  {
  }

  /** `str(i)` */
  function IntToString(i: int): (r: string)
    ensures |r| >= 1
    ensures forall k :: 0 <= k < |r| ==> IsDigit(r[k]) || (k == 0 && r[k] == '-')
  {
    if i < 0 then "-" + NatToString(-i) else NatToString(i)
  }

  /** `str(i)` has no white space at either end. */
  lemma IntToStringTrimmed(i: int)
    ensures Trimmed(IntToString(i))
  {
    var r := IntToString(i);
    DigitNotSpace(r[0]);
    DigitNotSpace(r[|r| - 1]);
  }

  /** A digit string with a leading zero and more than one digit is not what
      `str(int(s))` gives back: the zeros are lost. */
  lemma LeadingZerosLost(s: string)
    requires AllDigits(s) && |s| >= 2 && s[0] == '0'
    ensures NatToString(DigitsValue(s)) != s
  {
  }

  /** What `int()` accepts once the white space is stripped: an optional
      sign and at least one ASCII digit. */
  function ParseNumber(t: string): Option<int> {
    if |t| >= 2 && (t[0] == '+' || t[0] == '-') && AllDigits(t[1..]) then
      var magnitude: int := DigitsValue(t[1..]);
      Some(if t[0] == '-' then -magnitude else magnitude)
    else if |t| >= 1 && AllDigits(t) then
      Some(DigitsValue(t))
    else None
  }

  /** `int(s)` for a string: surrounding white space, an optional sign and
      at least one ASCII digit; anything else is a `ValueError` (`None`). */
  function ParseInt(s: string): Option<int> {
    ParseNumber(Strip(s))
  }

  /** A digit string parses to its decimal value. */
  lemma ParseIntDigits(s: string)
    requires |s| >= 1 && AllDigits(s)
    ensures ParseInt(s) == Some(DigitsValue(s))
  {
    DigitNotSpace(s[0]);
    DigitNotSpace(s[|s| - 1]);
    StripUnchanged(s);
    ParseNumberDigits(s);
  }

  lemma ParseNumberDigits(s: string)
    requires |s| >= 1 && AllDigits(s)
    ensures ParseNumber(s) == Some(DigitsValue(s))
  {
    assert IsDigit(s[0]);
  }

  // ---------------------------------------------------------------------------
  // Fixed-width zero-padded numbers
  // ---------------------------------------------------------------------------

  /** `f"{n:0{width}d}"` for `n < 10^width`. */
  function PadDigits(n: nat, width: nat): (r: string)
    requires n < Pow10(width)
    ensures |r| == width && AllDigits(r)
    ensures DigitsValue(r) == n
    decreases width
  {
    if width == 0 then ""
    else
      var r := PadDigits(n / 10, width - 1) + [DigitChar(n % 10)];
      assert r[..|r| - 1] == PadDigits(n / 10, width - 1);
      r
  }

  /** Padding the value of a digit string to its own width gives it back. */
  lemma {:induction false} PadDigitsValue(s: string)
    requires AllDigits(s)
    ensures DigitsValue(s) < Pow10(|s|)
    ensures PadDigits(DigitsValue(s), |s|) == s
    decreases |s|
  {
    DigitsValueBound(s);
    if |s| > 0 {
      var init := s[..|s| - 1];
      PadDigitsValue(init);
      var n := DigitsValue(s);
      assert n / 10 == DigitsValue(init);
      assert n % 10 == DigitValue(s[|s| - 1]);
      assert DigitChar(n % 10) == s[|s| - 1];
      assert init + [s[|s| - 1]] == s;
    }
  }
}

=== FILE: vatex_batch.dfy ===
/** `process_downloads` and the `jobs` check of `main` in the VATEX batch
    downloader (examples/vatex_download.py:85-185): the pre-scan that skips
    entries whose file already exists, the queue of the rest, and the tally
    of the workers' results in whatever order they arrive. The directory
    listing and the run outcomes are inputs. */
module VatexBatch {
  import opened Common
  import opened Text
  import opened VatexWorker

  /** `glob.glob(os.path.join(output_dir, f"{videoID}.*"))` is non-empty:
      some name in the output directory starts with the entry followed by a
      dot (the `*` also matches nothing). */
  predicate AlreadyDownloaded(existing: set<string>, info: string) {
    exists name | name in existing :: StartsWith(name, info + ".")
  }

  /** An entry the pre-scan skips: it has a `videoID` and its file exists.
      An entry without the key is never skipped. */
  predicate IsSkipped(item: CatalogItem, existing: set<string>) {
    item.videoInfo.Some? && AlreadyDownloaded(existing, item.videoInfo.value)
  }

  /** The reference queue: the entries not skipped, in catalog order. */
  function Queued(catalog: seq<CatalogItem>, existing: set<string>): (queue: seq<CatalogItem>)
    ensures |queue| <= |catalog|
    ensures forall i :: 0 <= i < |queue| ==> queue[i] in catalog && !IsSkipped(queue[i], existing)
    ensures forall i :: 0 <= i < |catalog| && !IsSkipped(catalog[i], existing) ==> catalog[i] in queue
    decreases |catalog|
  {
    if |catalog| == 0 then []
    else
      var init := catalog[..|catalog| - 1];
      var last := catalog[|catalog| - 1];
      var q := Queued(init, existing);
      assert forall i :: 0 <= i < |init| ==> init[i] == catalog[i];
      if IsSkipped(last, existing) then q else q + [last]
  }

  /** The number of skipped entries. */
  function SkippedCount(catalog: seq<CatalogItem>, existing: set<string>): (n: nat)
    ensures n <= |catalog|
    decreases |catalog|
  {
    if |catalog| == 0 then 0
    else SkippedCount(catalog[..|catalog| - 1], existing) + (if IsSkipped(catalog[|catalog| - 1], existing) then 1 else 0)
  }

  /** Every entry is either skipped or queued, never both. */
  lemma {:induction false} SkippedPlusQueued(catalog: seq<CatalogItem>, existing: set<string>)
    ensures SkippedCount(catalog, existing) + |Queued(catalog, existing)| == |catalog|
    decreases |catalog|
  {
    if |catalog| > 0 {
      SkippedPlusQueued(catalog[..|catalog| - 1], existing);
    }
  }

  /** The pre-scan loop: each entry either adds one to the skipped count or
      is appended to the queue. */
  method PreFilter(catalog: seq<CatalogItem>, existing: set<string>) returns (queue: seq<CatalogItem>, skipped: nat)
    ensures queue == Queued(catalog, existing)
    ensures skipped == SkippedCount(catalog, existing)
    ensures skipped + |queue| == |catalog|
    ensures forall i :: 0 <= i < |catalog| && catalog[i].videoInfo.None? ==> catalog[i] in queue
  {
    queue := [];
    skipped := 0;
    var i := 0;
    while i < |catalog|
      invariant 0 <= i <= |catalog|
      invariant queue == Queued(catalog[..i], existing)
      invariant skipped == SkippedCount(catalog[..i], existing)
    {
      var item := catalog[i];
      assert catalog[..i + 1][..i] == catalog[..i];
      match item.videoInfo {
        case None =>
          queue := queue + [item];
        case Some(info) =>
          if AlreadyDownloaded(existing, info) {
            skipped := skipped + 1;
          } else {
            queue := queue + [item];
          }
      }
      i := i + 1;
    }
    assert catalog[..i] == catalog;
    SkippedPlusQueued(catalog, existing);
  }

  // ---------------------------------------------------------------------------
  // The tally
  // ---------------------------------------------------------------------------

  /** How many of the results report success. */
  function Successes(results: seq<WorkerResult>): (n: nat)
    ensures n <= |results|
    decreases |results|
  {
    if |results| == 0 then 0
    else (if results[0].success then 1 else 0) + Successes(results[1..])
  }

  lemma {:induction false} SuccessesAppend(a: seq<WorkerResult>, b: seq<WorkerResult>)
    ensures Successes(a + b) == Successes(a) + Successes(b)
    decreases |a|
  {
    if |a| == 0 {
      assert a + b == b;
    } else {
      SuccessesAppend(a[1..], b);
      assert (a + b)[1..] == a[1..] + b;
    }
  }

  /** Taking the same element out of two equal multisets. */
  lemma RemoveOne(a: seq<WorkerResult>, b: seq<WorkerResult>, j: nat)
    requires multiset(a) == multiset(b) && |a| > 0 && j < |b| && b[j] == a[0]
    ensures multiset(a[1..]) == multiset(b[..j] + b[j + 1..])
  {
    var x := a[0];
    assert a == [x] + a[1..];
    assert b == b[..j] + [x] + b[j + 1..];
    assert multiset(a) == multiset([x]) + multiset(a[1..]);
    assert multiset(b) == multiset(b[..j]) + multiset([x]) + multiset(b[j + 1..]);
    assert multiset(b[..j] + b[j + 1..]) == multiset(b[..j]) + multiset(b[j + 1..]);
    assert multiset(a[1..]) == multiset(a) - multiset([x]);
  }

  /** One element counted on its own, the rest together. */
  lemma SuccessesPick(b: seq<WorkerResult>, j: nat)
    requires j < |b|
    ensures Successes(b) == (if b[j].success then 1 else 0) + Successes(b[..j] + b[j + 1..])
  {
    var left, tail, right := b[..j], b[j..], b[j + 1..];
    assert b == left + tail;
    SuccessesAppend(left, tail);
    assert tail[1..] == right;
    SuccessesAppend(left, right);
  }

  /** The count does not depend on the order in which results arrive: any
      rearrangement of the same results counts the same. */
  lemma {:induction false} SuccessesOrderFree(a: seq<WorkerResult>, b: seq<WorkerResult>)
    requires multiset(a) == multiset(b)
    ensures Successes(a) == Successes(b)
    decreases |a|
  {
    if |a| > 0 {
      assert a[0] in multiset(b);
      var j :| 0 <= j < |b| && b[j] == a[0];
      RemoveOne(a, b, j);
      SuccessesOrderFree(a[1..], b[..j] + b[j + 1..]);
      SuccessesPick(b, j);
    } else {
      assert |b| == |multiset(b)| == 0;
    }
  }

  /** The counts the summary reports. */
  datatype Tally = Tally(success: nat, failure: nat)

  /** The reference tally: the successes, and every other result a failure. */
  function TallyOf(results: seq<WorkerResult>): (t: Tally)
    ensures t.success + t.failure == |results|
  {
    Tally(Successes(results), |results| - Successes(results))
  }

  /** Any two arrival orders of the same results give the same tally. */
  lemma TallyOrderFree(a: seq<WorkerResult>, b: seq<WorkerResult>)
    requires multiset(a) == multiset(b)
    ensures TallyOf(a) == TallyOf(b)
  {
    SuccessesOrderFree(a, b);
    assert |a| == |multiset(a)| == |multiset(b)| == |b|;
  }

  /** The counting loop: each result adds one to exactly one of the two
      counters. */
  method CountResults(arrived: seq<WorkerResult>) returns (success: nat, failure: nat)
    ensures Tally(success, failure) == TallyOf(arrived)
    ensures success + failure == |arrived|
  {
    success, failure := 0, 0;
    var i := 0;
    while i < |arrived|
      invariant 0 <= i <= |arrived|
      invariant success == Successes(arrived[..i])
      invariant success + failure == i
    {
      SuccessesAppend(arrived[..i], [arrived[i]]);
      assert arrived[..i + 1] == arrived[..i] + [arrived[i]];
      if arrived[i].success {
        success := success + 1;
      } else {
        failure := failure + 1;
      }
      i := i + 1;
    }
    assert arrived[..i] == arrived;
  }

  // ---------------------------------------------------------------------------
  // process_downloads and main
  // ---------------------------------------------------------------------------

  /** How a batch ends. */
  datatype BatchOutcome =
    /** nothing queued: the function returns before any worker pool exists */
    | AllExisting(skipped: nat)
    /** the summary it logs, and how many worker calls were made */
    | Summary(success: nat, skipped: nat, failure: nat, attempts: nat)

  /** The workers' results in queue order, given whether each entry's run
      succeeds. */
  function WorkerResults(queue: seq<CatalogItem>, outputDir: string, runs: CatalogItem -> bool): (results: seq<WorkerResult>)
    ensures |results| == |queue|
    ensures forall i :: 0 <= i < |queue| ==> results[i] == DownloadWorker(queue[i], outputDir, runs(queue[i]))
  {
    seq(|queue|, i requires 0 <= i < |queue| => DownloadWorker(queue[i], outputDir, runs(queue[i])))
  }

  /** `process_downloads` after the catalog is loaded. The summary is the
      tally of the workers' results; `SummaryInAnyOrder` shows that the order
      in which `imap_unordered` delivers them does not change it. */
  function ProcessDownloads(catalog: seq<CatalogItem>, existing: set<string>, outputDir: string,
                            runs: CatalogItem -> bool): (r: BatchOutcome)
    ensures r.AllExisting? <==> |Queued(catalog, existing)| == 0
    ensures r.skipped == SkippedCount(catalog, existing)
    ensures r.Summary? ==>
      && r.attempts == |Queued(catalog, existing)|
      && r.success + r.failure == r.attempts
      && r.skipped + r.attempts == |catalog|
  {
    var queue := Queued(catalog, existing);
    var skipped := SkippedCount(catalog, existing);
    SkippedPlusQueued(catalog, existing);
    if |queue| == 0 then AllExisting(skipped)
    else
      var t := TallyOf(WorkerResults(queue, outputDir, runs));
      Summary(t.success, skipped, t.failure, |queue|)
  }

  /** The summary counts the workers' successes and failures, and whatever
      order the results arrive in, counting them as they come (the loop
      `CountResults` runs) gives the same counts. */
  lemma SummaryInAnyOrder(catalog: seq<CatalogItem>, existing: set<string>, outputDir: string,
                          runs: CatalogItem -> bool, arrived: seq<WorkerResult>)
    requires multiset(arrived) == multiset(WorkerResults(Queued(catalog, existing), outputDir, runs))
    ensures var r := ProcessDownloads(catalog, existing, outputDir, runs);
      r.Summary? ==> TallyOf(arrived) == Tally(r.success, r.failure)
  {
    TallyOrderFree(arrived, WorkerResults(Queued(catalog, existing), outputDir, runs));
  }

  /** A run where every entry already has its file makes no download
      attempt. */
  lemma NothingToDo(catalog: seq<CatalogItem>, existing: set<string>, outputDir: string, runs: CatalogItem -> bool)
    requires forall i :: 0 <= i < |catalog| ==> IsSkipped(catalog[i], existing)
    ensures Queued(catalog, existing) == []
    ensures ProcessDownloads(catalog, existing, outputDir, runs) == AllExisting(|catalog|)
  {
    SkippedPlusQueued(catalog, existing);
  }

  /** The files successful downloads leave: `<videoID>.<ext>`, where `ext`
      is whatever extension yt-dlp's remux gives the file (`mp4` for the
      remux the command asks for). */
  function WrittenNames(results: seq<WorkerResult>, ext: string): set<string> {
    set i | 0 <= i < |results| && results[i].success :: results[i].name + "." + ext
  }

  /** A queued, well-formed entry whose run succeeds leaves a file the next
      pre-scan finds. */
  lemma SuccessLeavesFile(queue: seq<CatalogItem>, outputDir: string, runs: CatalogItem -> bool, ext: string, k: nat)
    requires k < |queue| && WorkerCommand(queue[k], outputDir).Some? && runs(queue[k])
    ensures AlreadyDownloaded(WrittenNames(WorkerResults(queue, outputDir, runs), ext), queue[k].videoInfo.value)
  {
    var results := WorkerResults(queue, outputDir, runs);
    var info := queue[k].videoInfo.value;
    assert results[k] == WorkerResult(true, info);
    WrittenHas(results, ext, k);
    NameStartsWithStem(info, ext);
  }

  /** A successful result's file is among the written names. */
  lemma WrittenHas(results: seq<WorkerResult>, ext: string, k: nat)
    requires k < |results| && results[k].success
    ensures results[k].name + "." + ext in WrittenNames(results, ext)
  {
  }

  /** `<info>.<ext>` starts with `<info>.`, as the pre-scan's glob asks. */
  lemma NameStartsWithStem(info: string, ext: string)
    ensures StartsWith(info + "." + ext, info + ".")
  {
    assert (info + "." + ext)[..|info| + 1] == info + ".";
  }

  /** After such a run each entry is skipped: either its file was there
      already or its successful download left one. */
  lemma SkippedOnRerun(catalog: seq<CatalogItem>, existing: set<string>, outputDir: string, runs: CatalogItem -> bool, ext: string, i: nat)
    requires i < |catalog| && WorkerCommand(catalog[i], outputDir).Some? && runs(catalog[i])
    ensures IsSkipped(catalog[i], existing + WrittenNames(WorkerResults(Queued(catalog, existing), outputDir, runs), ext))
  {
    var queue := Queued(catalog, existing);
    var written := WrittenNames(WorkerResults(queue, outputDir, runs), ext);
    var info := catalog[i].videoInfo.value;
    if AlreadyDownloaded(existing, info) {
      var name :| name in existing && StartsWith(name, info + ".");
      assert name in existing + written;
    } else {
      assert catalog[i] in queue;
      var k :| 0 <= k < |queue| && queue[k] == catalog[i];
      SuccessLeavesFile(queue, outputDir, runs, ext, k);
      var name :| name in written && StartsWith(name, info + ".");
      assert name in existing + written;
    }
  }

  /** Re-running is idempotent: when every entry is well formed and every
      download succeeds, leaving `<videoID>.<ext>` in the directory, the next
      run skips the whole catalog and attempts nothing. */
  lemma RerunSkipsAll(catalog: seq<CatalogItem>, existing: set<string>, outputDir: string, runs: CatalogItem -> bool, ext: string)
    requires forall i :: 0 <= i < |catalog| ==> WorkerCommand(catalog[i], outputDir).Some? && runs(catalog[i])
    ensures var written := WrittenNames(WorkerResults(Queued(catalog, existing), outputDir, runs), ext);
      && Queued(catalog, existing + written) == []
      && ProcessDownloads(catalog, existing + written, outputDir, runs) == AllExisting(|catalog|)
  {
    var written := WrittenNames(WorkerResults(Queued(catalog, existing), outputDir, runs), ext);
    forall i | 0 <= i < |catalog|
      ensures IsSkipped(catalog[i], existing + written)
    {
      SkippedOnRerun(catalog, existing, outputDir, runs, ext, i);
    }
    NothingToDo(catalog, existing + written, outputDir, runs);
  }

  /** What the command line ends in. */
  datatype MainOutcome =
    | Rejected(exitCode: int, message: string)
    | Processed(outcome: BatchOutcome)

  const JobsMessage := "Number of jobs must be a positive integer."

  /** `main` after argument parsing: a job count that is not positive exits
      with status 1 before anything is scanned or downloaded. */
  function MainRun(jobs: int, catalog: seq<CatalogItem>, existing: set<string>, outputDir: string,
                   runs: CatalogItem -> bool): (r: MainOutcome)
    ensures r.Rejected? <==> jobs <= 0
    ensures r.Rejected? ==> r.exitCode == 1 && r.message == JobsMessage
    ensures r.Processed? ==> r.outcome == ProcessDownloads(catalog, existing, outputDir, runs)
  {
    if jobs <= 0 then Rejected(1, JobsMessage)
    else Processed(ProcessDownloads(catalog, existing, outputDir, runs))
  }
}

=== FILE: vatex_worker.dfy ===
/** `download_worker` of the VATEX batch downloader
    (examples/vatex_download.py:18-83): the reading of a catalog entry's
    `videoID` into a video id and a clip range, the yt-dlp command built
    from it, and the `(success, label)` pair it reports. Running the command
    is an input. */
module VatexWorker {
  import opened Common
  import opened Text
  import opened ClipLocator

  /** A catalog entry: its `videoID`, if the key is present (`None` for a
      missing key), and the text `str(item)` of the whole entry. */
  datatype CatalogItem = CatalogItem(videoInfo: Option<string>, repr: string)

  /** A `videoID` read as `<video id>_<start>_<end>`: the three texts and
      the two numbers. */
  datatype ClipInfo = ClipInfo(videoId: string, startText: string, endText: string, start: int, end: int)

  /** The pieces around the last two underscores: `None` when there are
      fewer than two underscores. */
  function SplitInfo(info: string): (r: Option<(string, string, string)>)
    ensures r.Some? ==> '_' !in r.value.1 && '_' !in r.value.2
    ensures r.Some? ==> r.value.0 + "_" + r.value.1 + "_" + r.value.2 == info
  {
    var parts := Split(info, '_');
    if |parts| < 3 then None
    else
      var n := |parts|;
      SplitPieces(info, '_');
      JoinSplit(info, '_');
      JoinSplitsAt(parts, "_", n - 2);
      JoinSplitsAt(parts[n - 2..], "_", 1);
      assert parts[n - 2..][..1] == [parts[n - 2]];
      assert parts[n - 2..][1..] == [parts[n - 1]];
      Some((Join(parts[..n - 2], "_"), parts[n - 2], parts[n - 1]))
  }

  /** The `try` block of the worker: split on `_`, at least three parts,
      the id being everything before the last two, and both of those parsed
      by `int()`, start first. `None` is a `ValueError`. */
  function ParseVideoInfo(info: string): (r: Option<ClipInfo>)
    ensures r.Some? ==> r.value.videoId + "_" + r.value.startText + "_" + r.value.endText == info
    ensures r.Some? ==> ParseInt(r.value.startText) == Some(r.value.start) && ParseInt(r.value.endText) == Some(r.value.end)
    ensures r.None? <==> SplitInfo(info).None? || ParseInt(SplitInfo(info).value.1).None? || ParseInt(SplitInfo(info).value.2).None?
  {
    match SplitInfo(info)
    case None => None
    case Some((id, s, e)) =>
      match ParseInt(s)
      case None => None
      case Some(start) =>
        match ParseInt(e)
        case None => None
        case Some(end) => Some(ClipInfo(id, s, e, start, end))
  }

  /** Fewer than two underscores is malformed: `'_'` must split the string
      into at least three parts. */
  lemma TooFewParts(info: string)
    requires |Split(info, '_')| < 3
    ensures ParseVideoInfo(info).None?
  {
  }

  /** The pieces of `<id>_<s>_<e>` when neither `s` nor `e` holds an
      underscore: those of the id, then `s`, then `e`. */
  lemma ComposedPieces(id: string, s: string, e: string)
    requires '_' !in s && '_' !in e
    ensures Split(id + "_" + s + "_" + e, '_') == Split(id, '_') + [s] + [e]
  {
    assert id + "_" + s + "_" + e == id + ['_'] + (s + ['_'] + e);
    SplitAtSep(id, s + ['_'] + e, '_');
    SplitAtSep(s, e, '_');
    SplitWithoutSep(s, '_');
    SplitWithoutSep(e, '_');
  }

  /** Splitting `<id>_<s>_<e>` at its last two underscores gives the three
      parts back when neither `s` nor `e` holds an underscore. */
  lemma SplitComposed(id: string, s: string, e: string)
    requires '_' !in s && '_' !in e
    ensures SplitInfo(id + "_" + s + "_" + e) == Some((id, s, e))
  {
    var ids := Split(id, '_');
    var parts := Split(id + "_" + s + "_" + e, '_');
    ComposedPieces(id, s, e);
    assert parts[..|parts| - 2] == ids;
    assert parts[|parts| - 2] == s && parts[|parts| - 1] == e;
    JoinSplit(id, '_');
  }

  /** An id keeps its own underscores: any id followed by two digit strings
      reads back as that id, the two texts, and their values. */
  lemma ParseComposed(id: string, s: string, e: string)
    requires |s| >= 1 && AllDigits(s) && |e| >= 1 && AllDigits(e)
    ensures ParseVideoInfo(id + "_" + s + "_" + e) == Some(ClipInfo(id, s, e, DigitsValue(s), DigitsValue(e)))
  {
    assert '_' !in s && '_' !in e;
    SplitComposed(id, s, e);
    ParseIntDigits(s);
    ParseIntDigits(e);
  }

  /** The numbers are what `int()` gives, so zero padding is not kept:
      `str(start)` differs from a padded start text. */
  lemma PaddingLost(id: string, s: string, e: string)
    requires |s| >= 2 && AllDigits(s) && s[0] == '0' && |e| >= 1 && AllDigits(e)
    ensures ParseVideoInfo(id + "_" + s + "_" + e).Some?
    ensures IntToString(ParseVideoInfo(id + "_" + s + "_" + e).value.start) != s
  {
    ParseComposed(id, s, e);
    LeadingZerosLost(s);
  }

  /** `video_info_string or f"malformed_data:_{item}"`: the label of a
      malformed entry. An empty `videoID` is falsy too. */
  function FailureLabel(item: CatalogItem): (shown: string)
    ensures item.videoInfo.Some? && item.videoInfo.value != "" ==> shown == item.videoInfo.value
    ensures item.videoInfo.None? || item.videoInfo.value == "" ==> shown == "malformed_data:_" + item.repr
  {
    match item.videoInfo
    case Some(info) => if info != "" then info else "malformed_data:_" + item.repr
    case None => "malformed_data:_" + item.repr
  }

  /** `os.path.join(a, b)` on POSIX: an absolute `b` replaces `a`; otherwise
      a `/` is put between them unless `a` is empty or already ends with one. */
  function PathJoin(a: string, b: string): (p: string)
    ensures EndsWith(p, b)
    ensures StartsWith(b, "/") ==> p == b
    ensures !StartsWith(b, "/") ==> StartsWith(p, a)
  {
    if StartsWith(b, "/") then b
    else if a == "" || EndsWith(a, "/") then a + b
    else a + "/" + b
  }

  /** The argument list of the yt-dlp run for a parsed entry. */
  function Command(outputDir: string, info: string, clip: ClipInfo): (cmd: seq<string>)
    ensures |cmd| == 11
    ensures cmd[0] == "yt-dlp"
    // the output template names the file after the whole videoID, in the output directory
    ensures cmd[3] == "-o" && cmd[4] == PathJoin(outputDir, info + ".%(ext)s")
    // the section is `*<start>-<end>`, whatever their order
    ensures cmd[5] == "--download-sections" && cmd[6] == "*" + IntToString(clip.start) + "-" + IntToString(clip.end)
    ensures "--force-keyframes-at-cuts" in cmd
    ensures cmd[8] == "--remux-video" && cmd[9] == "mp4"
    // the URL of the id is the last argument
    ensures cmd[|cmd| - 1] == WatchUrlPrefix + clip.videoId
  {
    ["yt-dlp",
     "--quiet", "--no-warnings",
     "-o", PathJoin(outputDir, info + ".%(ext)s"),
     "--download-sections", "*" + IntToString(clip.start) + "-" + IntToString(clip.end),
     "--force-keyframes-at-cuts",
     "--remux-video", "mp4",
     WatchUrlPrefix + clip.videoId]
  }

  /** The command a worker would run for an entry, or `None` for a
      malformed entry (no command is built). */
  function WorkerCommand(item: CatalogItem, outputDir: string): (cmd: Option<seq<string>>)
    ensures cmd.Some? <==> item.videoInfo.Some? && ParseVideoInfo(item.videoInfo.value).Some?
    ensures cmd.Some? ==> cmd.value == Command(outputDir, item.videoInfo.value, ParseVideoInfo(item.videoInfo.value).value)
  {
    match item.videoInfo
    case None => None
    case Some(info) =>
      match ParseVideoInfo(info)
      case None => None
      case Some(clip) => Some(Command(outputDir, info, clip))
  }

  /** `(success, label)` as the worker returns it. */
  datatype WorkerResult = WorkerResult(success: bool, name: string)

  /** `download_worker((item, output_dir))`, given whether running the
      command ends with exit status 0 (any raised error is a failure). */
  function DownloadWorker(item: CatalogItem, outputDir: string, runSucceeds: bool): (r: WorkerResult)
    // success needs both a well-formed entry and a successful run
    ensures r.success <==> runSucceeds && WorkerCommand(item, outputDir).Some?
    // a well-formed entry is reported under its videoID, a malformed one
    // under its fallback label
    ensures r.name == (if WorkerCommand(item, outputDir).Some? then item.videoInfo.value else FailureLabel(item))
  {
    match WorkerCommand(item, outputDir)
    case None => WorkerResult(false, FailureLabel(item))
    case Some(_) => WorkerResult(runSucceeds, item.videoInfo.value)
  }

  /** An entry spelled `<id>_<start>_<end>` with digit texts builds the
      command for that id and range, and its file is named after the whole
      entry. */
  lemma ComposedCommand(outputDir: string, id: string, s: string, e: string)
    requires |s| >= 1 && AllDigits(s) && |e| >= 1 && AllDigits(e)
    ensures var info := id + "_" + s + "_" + e;
      var cmd := WorkerCommand(CatalogItem(Some(info), info), outputDir);
      && cmd.Some?
      && cmd.value[6] == "*" + IntToString(DigitsValue(s)) + "-" + IntToString(DigitsValue(e))
      && cmd.value[10] == WatchUrlPrefix + id
      && cmd.value[4] == PathJoin(outputDir, info + ".%(ext)s")
  {
    ParseComposed(id, s, e);
  }

  /** A missing key never builds a command and is reported by the entry's
      text. */
  lemma MissingKeyFails(repr: string, outputDir: string, runSucceeds: bool)
    ensures DownloadWorker(CatalogItem(None, repr), outputDir, runSucceeds) == WorkerResult(false, "malformed_data:_" + repr)
  {
  }
}

=== FILE: web_file.dfy ===
/** The decision logic of `WebFileDownloader.__call__`
    (video2dataset/data_reader.py:127-163): which modality a direct file
    yields, when an audio side-stream is added, and which modalities are
    kept. Fetching, writing and probing are inputs. */
module WebFile {
  import opened Common
  import opened FileInfo

  /** What the outside world answers during one web-file download. */
  datatype WebIo = WebIo(
    /** reading the local file or the HTTP body and writing it to a temporary
        path: the path, or the message of the exception raised */
    fetched: Result<string>,
    /** `video2audio`: an extracted audio path, `None` when the video has a
        single stream or extraction failed, or the message `ffmpeg.probe` raised */
    audioSide: Result<Option<string>>)

  /** The message Python gives when `get_file_info` returned `None` and its
      result is unpacked. */
  const UnpackNoneMessage := "cannot unpack non-iterable NoneType object"

  /** The modality paths before unrequested modalities are dropped. */
  function Assemble(url: string, encodeFormats: map<Modality, string>, io: WebIo): (r: Result<map<Modality, string>>)
    ensures GetFileInfo(url).None? ==> r == Err(UnpackNoneMessage)
    ensures r.Ok? ==> GetFileInfo(url).Some? && io.fetched.Ok?
    ensures r.Ok? ==> var kind := GetFileInfo(url).value;
      && kind.modality in r.value && r.value[kind.modality] == io.fetched.value
      && (kind.modality == Video ==>
            (Audio in r.value <==> Requested(encodeFormats, Audio) && io.audioSide.Ok? && io.audioSide.value.Some?))
      && (kind.modality == Video && Audio in r.value ==> r.value[Audio] == io.audioSide.value.value)
      && r.value.Keys <= {kind.modality, Audio}
    // a known file succeeds exactly when it was fetched and, for a video with
    // audio requested, the audio probe did not raise; each raise is passed on
    ensures GetFileInfo(url).Some? ==>
      (r.Ok? <==> io.fetched.Ok? && !(GetFileInfo(url).value.modality == Video && Requested(encodeFormats, Audio) && io.audioSide.Err?))
    ensures GetFileInfo(url).Some? && io.fetched.Err? ==> r == Err(io.fetched.message)
    ensures (GetFileInfo(url).Some? && io.fetched.Ok? && GetFileInfo(url).value.modality == Video
             && Requested(encodeFormats, Audio) && io.audioSide.Err?) ==> r == Err(io.audioSide.message)
  {
    match GetFileInfo(url)
    case None => Err(UnpackNoneMessage)
    case Some(kind) =>
      match io.fetched
      case Err(e) => Err(e)
      case Ok(path) =>
        var paths := map[kind.modality := path];
        if kind.modality == Video && Requested(encodeFormats, Audio) then
          match io.audioSide
          case Err(e) => Err(e)
          case Ok(None) => Ok(paths)
          case Ok(Some(audioPath)) => Ok(paths[Audio := audioPath])
        else Ok(paths)
  }

  /** The message `modality_path.pop(modality)` raises: the loop calls `pop`
      on the path string, not on the dictionary. */
  const StrPopMessage := "'str' object has no attribute 'pop'"

  /** The drop loop as written: the first modality that is not a key of
      `encode_formats` raises (after its file is removed). */
  function DropUnrequestedAsWritten(paths: map<Modality, string>, encodeFormats: map<Modality, string>): (r: Result<map<Modality, string>>)
    ensures r.Ok? <==> paths.Keys <= encodeFormats.Keys
    ensures r.Ok? ==> r.value == paths
    ensures r.Err? ==> r.message == StrPopMessage
  {
    if exists m :: m in paths && m !in encodeFormats then Err(StrPopMessage) else Ok(paths)
  }

  /** The drop loop as intended: keep exactly the modalities that are keys of
      `encode_formats`, with their paths. */
  function DropUnrequested(paths: map<Modality, string>, encodeFormats: map<Modality, string>): (r: map<Modality, string>)
    ensures r.Keys == paths.Keys * encodeFormats.Keys
    ensures forall m :: m in r ==> r[m] == paths[m]
  {
    map m | m in paths && m in encodeFormats :: paths[m]
  }

  /** `WebFileDownloader.__call__` with the intended drop loop. */
  function WebFileDownload(url: string, encodeFormats: map<Modality, string>, io: WebIo): (r: Result<map<Modality, string>>)
    ensures r.Ok? ==> r.value.Keys <= encodeFormats.Keys
  {
    match Assemble(url, encodeFormats, io)
    case Err(e) => Err(e)
    case Ok(paths) => Ok(DropUnrequested(paths, encodeFormats))
  }

  /** `WebFileDownloader.__call__` as written: it succeeds exactly when every
      produced modality is a key of `encode_formats`, and then returns them
      all; a produced modality that is not a key raises the str-pop error. */
  function WebFileDownloadAsWritten(url: string, encodeFormats: map<Modality, string>, io: WebIo): (r: Result<map<Modality, string>>)
    ensures var a := Assemble(url, encodeFormats, io);
      r.Ok? <==> a.Ok? && a.value.Keys <= encodeFormats.Keys
    ensures r.Ok? ==> r.value == Assemble(url, encodeFormats, io).value
    ensures Assemble(url, encodeFormats, io).Err? ==> r == Assemble(url, encodeFormats, io)
    ensures Assemble(url, encodeFormats, io).Ok? && r.Err? ==> r.message == StrPopMessage
  {
    match Assemble(url, encodeFormats, io)
    case Err(e) => Err(e)
    case Ok(paths) => DropUnrequestedAsWritten(paths, encodeFormats)
  }

  /** The file's own modality is kept exactly when it is a key of
      `encode_formats`; audio is added only to a video, only when audio is
      requested, and only when extraction produced a file. */
  lemma WebFileDownloadKeeps(url: string, encodeFormats: map<Modality, string>, io: WebIo)
    requires WebFileDownload(url, encodeFormats, io).Ok?
    ensures var kind := GetFileInfo(url).value;
      var kept := WebFileDownload(url, encodeFormats, io).value;
      && (kind.modality in kept <==> kind.modality in encodeFormats)
      && (kind.modality in kept ==> kept[kind.modality] == io.fetched.value)
      && (Audio in kept && kind.modality == Video ==> Requested(encodeFormats, Audio) && io.audioSide == Ok(Some(kept[Audio])))
  {
  }

  /** Whenever every produced modality was requested, the written loop and
      the intended one agree. */
  lemma AsWrittenAgreesWhenAllRequested(url: string, encodeFormats: map<Modality, string>, io: WebIo)
    requires Assemble(url, encodeFormats, io).Ok?
    requires Assemble(url, encodeFormats, io).value.Keys <= encodeFormats.Keys
    ensures WebFileDownloadAsWritten(url, encodeFormats, io) == WebFileDownload(url, encodeFormats, io)
  {
    var paths := Assemble(url, encodeFormats, io).value;
    assert DropUnrequested(paths, encodeFormats) == paths;
  }

  /** Whenever the file yields a modality that was not requested, the
      written loop raises while the intended one succeeds. */
  lemma AsWrittenRaisesOnUnrequested(url: string, encodeFormats: map<Modality, string>, io: WebIo)
    requires Assemble(url, encodeFormats, io).Ok?
    requires GetFileInfo(url).value.modality !in encodeFormats
    ensures WebFileDownloadAsWritten(url, encodeFormats, io) == Err(StrPopMessage)
    ensures WebFileDownload(url, encodeFormats, io).Ok?
  {
  }

  /** `song.mp3` is an audio file. */
  lemma Mp3IsAudio()
    ensures GetFileInfo("song.mp3") == Some(FileKind("mp3", Audio))
  {
    assert "song.mp3"[4..] == ".mp3";
    GetFileInfoComplete("song.mp3", "mp3", Audio);
  }

  /** A concrete instance: an `.mp3` URL while only video is requested. The
      written loop raises; the intended one keeps nothing. */
  lemma Mp3WithVideoOnly(io: WebIo)
    requires io.fetched == Ok("/tmp/a.mp3")
    ensures WebFileDownloadAsWritten("song.mp3", map[Video := "mp4"], io) == Err(StrPopMessage)
    ensures WebFileDownload("song.mp3", map[Video := "mp4"], io) == Ok(map[])
  {
    Mp3IsAudio();
    AsWrittenRaisesOnUnrequested("song.mp3", map[Video := "mp4"], io);
    assert Assemble("song.mp3", map[Video := "mp4"], io) == Ok(map[Audio := "/tmp/a.mp3"]);
    assert DropUnrequested(map[Audio := "/tmp/a.mp3"], map[Video := "mp4"]) == map[];
  }
}

=== FILE: yt_dlp_call.dfy ===
/** `YtDlpDownloader` (video2dataset/data_reader.py:166-298): its settings,
    what one call asks yt-dlp for, and what it returns given yt-dlp's
    answers. Temporary paths, yt-dlp's exit status and the metadata query
    are inputs. */
module YtDlpCall {
  import opened Common
  import opened Text
  import opened FileInfo
  import opened ClipLocator
  import opened FormatSelector
  import opened Cookies

  const DefaultVideoSize := 360
  const DefaultAudioRate := 44100

  /** The `yt_args` keys the downloader reads; `None` is a missing key. */
  datatype YtArgs = YtArgs(
    downloadSize: Option<int>,
    downloadAudioRate: Option<int>,
    /** `yt_metadata_args`, opaque option names and values; `{}` when missing */
    metadataArgs: map<string, string>)

  /** One downloader instance: its settings and its cookie pool. */
  datatype Downloader = Downloader(
    videoSize: int,
    audioRate: int,
    metadataArgs: map<string, string>,
    encodeFormats: map<Modality, string>,
    specifyCodec: bool,
    pool: CookiePool)

  /** `YtDlpDownloader.__init__`: defaults of 360 pixels and 44100 Hz, the
      codec filter off, and a fresh cookie pool. */
  function NewDownloader(ytArgs: YtArgs, encodeFormats: map<Modality, string>, cookies: CookieSetting): (d: Downloader)
    ensures d.videoSize == (if ytArgs.downloadSize.Some? then ytArgs.downloadSize.value else DefaultVideoSize)
    ensures d.audioRate == (if ytArgs.downloadAudioRate.Some? then ytArgs.downloadAudioRate.value else DefaultAudioRate)
    ensures !d.specifyCodec
    ensures d.pool.cursor == 0 && d.pool.files == CookieFiles(cookies)
  {
    Downloader(
      match ytArgs.downloadSize case Some(h) => h case None => DefaultVideoSize,
      match ytArgs.downloadAudioRate case Some(r) => r case None => DefaultAudioRate,
      ytArgs.metadataArgs,
      encodeFormats,
      false,
      NewPool(cookies))
  }

  /** The options of one `yt_dlp.YoutubeDL(...).download(url)` call. */
  datatype DownloadRequest = DownloadRequest(
    outputPath: string,
    /** the `format` option, as the selector whose `SelectorText` is passed */
    format: Selector,
    cookieFile: Option<string>,
    range: Option<ClipSpan>,
    forceKeyframesAtCuts: bool,
    noWarnings: bool)

  /** What one call asks for: the URL, the span, the cookie picked, and the
      audio and video downloads (absent when that modality is not requested). */
  datatype CallPlan = CallPlan(
    target: string,
    span: Option<ClipSpan>,
    cookie: Option<string>,
    audio: Option<DownloadRequest>,
    video: Option<DownloadRequest>)

  function Request(outputPath: string, format: Selector, cookie: Option<string>, span: Option<ClipSpan>, noWarnings: bool): DownloadRequest {
    DownloadRequest(outputPath, format, CookieOption(cookie), span, span.Some?, noWarnings)
  }

  /** The requests of one call and the downloader it leaves behind. */
  function PlanCall(d: Downloader, url: string, audioPath: string, videoPath: string): (r: (CallPlan, Downloader))
    ensures r.0.target == ResolveLocator(url).target
    ensures r.0.span == ResolveLocator(url).span
    ensures r.0.audio.Some? <==> Requested(d.encodeFormats, Audio)
    ensures r.0.video.Some? <==> Requested(d.encodeFormats, Video)
    ensures r.0.cookie == TakeCookie(d.pool).0
    // the cursor moves once per call, whether or not the pool is used twice
    ensures r.1 == d.(pool := TakeCookie(d.pool).1)
  {
    var resolved := ResolveLocator(url);
    var cookie := TakeCookie(d.pool).0;
    var audio :=
      if Requested(d.encodeFormats, Audio)
      then Some(Request(audioPath, AudioSelector(d.audioRate), cookie, resolved.span, false))
      else None;
    var video :=
      if Requested(d.encodeFormats, Video)
      then Some(Request(videoPath, VideoSelector(d.videoSize, d.specifyCodec), cookie, resolved.span, true))
      else None;
    (CallPlan(resolved.target, resolved.span, cookie, audio, video), d.(pool := TakeCookie(d.pool).1))
  }

  /** The two downloads of a call: the one cookie picked serves both, a span
      restricts both to it and cuts them at keyframes, and each has its own
      selector and output path. */
  lemma PlanRequests(d: Downloader, url: string, audioPath: string, videoPath: string)
    ensures var plan := PlanCall(d, url, audioPath, videoPath).0;
      && (plan.audio.Some? ==>
        && plan.audio.value.cookieFile == CookieOption(plan.cookie)
        && plan.audio.value.range == plan.span
        && plan.audio.value.forceKeyframesAtCuts == plan.span.Some?
        && plan.audio.value.format == AudioSelector(d.audioRate)
        && plan.audio.value.outputPath == audioPath)
      && (plan.video.Some? ==>
        && plan.video.value.cookieFile == CookieOption(plan.cookie)
        && plan.video.value.range == plan.span
        && plan.video.value.forceKeyframesAtCuts == plan.span.Some?
        && plan.video.value.format == VideoSelector(d.videoSize, d.specifyCodec)
        && plan.video.value.outputPath == videoPath)
  {
  }

  /** How one yt-dlp download ended. */
  datatype Attempt =
    | Raised(message: string)               // an exception inside the `try`
    | Exited(code: int, outputExists: bool) // the return code, and whether the output file is there

  /** The error the downloader logs for an attempt; `None` is success. */
  function AttemptError(a: Attempt): (err: Option<string>)
    ensures err.None? <==> a.Exited? && a.code == 0 && a.outputExists
  {
    match a
    case Raised(m) => Some(m)
    case Exited(code, present) =>
      if code != 0 || !present then Some("yt-dlp exited with status " + IntToString(code)) else None
  }

  /** A metadata value: the clip list the downloader adds, or whatever the
      metadata query returned (kept opaque). */
  datatype MetaValue = Clips(spans: seq<seq<nat>>) | Fetched(json: string)

  type MetaDict = map<string, MetaValue>

  /** The answers of the outside world to one call. */
  datatype YtIo = YtIo(
    audio: Attempt,
    video: Attempt,
    /** `get_yt_meta(url, ...)`: its dictionary or the message it raised */
    metadata: Result<MetaDict>)

  /** `(modality_paths, yt_meta_dict, None)` */
  datatype YtOutcome = YtOutcome(paths: map<Modality, string>, meta: MetaDict, error: Option<string>)

  /** The metadata dictionary: the query's result when metadata is asked for
      and the query did not raise, `{}` otherwise, plus `clips` for a span. */
  function Metadata(d: Downloader, span: Option<ClipSpan>, fetched: Result<MetaDict>): (meta: MetaDict)
    ensures span.Some? ==> "clips" in meta && meta["clips"] == Clips([[span.value.start, span.value.end]])
    ensures span.None? ==> meta == (if |d.metadataArgs| > 0 && fetched.Ok? then fetched.value else map[])
  {
    var base := if |d.metadataArgs| > 0 && fetched.Ok? then fetched.value else map[];
    match span
    case Some(s) => base["clips" := Clips([[s.start, s.end]])]
    case None => base
  }

  /** With a span, every key besides `clips` comes from a query that was
      asked for and did not raise, with the query's value; a failed or
      skipped query leaves `clips` alone. */
  lemma MetadataFromQuery(d: Downloader, span: ClipSpan, fetched: Result<MetaDict>)
    ensures forall k :: k in Metadata(d, Some(span), fetched) && k != "clips" ==>
      |d.metadataArgs| > 0 && fetched.Ok? && k in fetched.value && Metadata(d, Some(span), fetched)[k] == fetched.value[k]
    ensures |d.metadataArgs| == 0 || fetched.Err? ==> Metadata(d, Some(span), fetched).Keys == {"clips"}
    // and nothing the query returned is lost: only `clips` is overwritten
    ensures |d.metadataArgs| > 0 && fetched.Ok? ==>
      && Metadata(d, Some(span), fetched).Keys == fetched.value.Keys + {"clips"}
      && forall k :: k in fetched.value && k != "clips" ==> Metadata(d, Some(span), fetched)[k] == fetched.value[k]
  {
  }

  /** One call `YtDlpDownloader.__call__(url)`: the plan it makes, what it
      returns, and the downloader it leaves. */
  datatype YtCall = YtCall(plan: CallPlan, outcome: YtOutcome)

  function YtDlpDownload(d: Downloader, url: string, audioPath: string, videoPath: string, io: YtIo): (r: (YtCall, Downloader))
    ensures r.0.plan == PlanCall(d, url, audioPath, videoPath).0
    ensures r.1 == PlanCall(d, url, audioPath, videoPath).1
    // each modality is kept exactly when it was requested and its own download succeeded
    ensures Audio in r.0.outcome.paths <==> Requested(d.encodeFormats, Audio) && AttemptError(io.audio).None?
    ensures Video in r.0.outcome.paths <==> Requested(d.encodeFormats, Video) && AttemptError(io.video).None?
    ensures Audio in r.0.outcome.paths ==> r.0.outcome.paths[Audio] == audioPath
    ensures Video in r.0.outcome.paths ==> r.0.outcome.paths[Video] == videoPath
    ensures r.0.outcome.meta == Metadata(d, r.0.plan.span, io.metadata)
    ensures r.0.outcome.error.None?
  {
    var step := PlanCall(d, url, audioPath, videoPath);
    var wantAudio := Requested(d.encodeFormats, Audio);
    var wantVideo := Requested(d.encodeFormats, Video);
    assert step.0.audio.Some? == wantAudio && step.0.video.Some? == wantVideo;
    var paths := KeptPaths(wantAudio, wantVideo, audioPath, videoPath, io);
    (YtCall(step.0, YtOutcome(paths, Metadata(d, step.0.span, io.metadata), None)), step.1)
  }

  /** A call returns only requested modalities. */
  lemma KeptAreRequested(d: Downloader, url: string, audioPath: string, videoPath: string, io: YtIo)
    ensures forall m :: m in YtDlpDownload(d, url, audioPath, videoPath, io).0.outcome.paths ==> Requested(d.encodeFormats, m)
  {
    var paths := YtDlpDownload(d, url, audioPath, videoPath, io).0.outcome.paths;
    forall m | m in paths
      ensures Requested(d.encodeFormats, m)
    {
      if m == Audio {
        assert Audio in paths;
      } else {
        assert Video in paths;
      }
    }
  }

  /** The `modality_paths` a call returns: each requested modality whose
      own download succeeded, under its output path. */
  function KeptPaths(wantAudio: bool, wantVideo: bool, audioPath: string, videoPath: string, io: YtIo): (paths: map<Modality, string>)
    ensures Audio in paths <==> wantAudio && AttemptError(io.audio).None?
    ensures Video in paths <==> wantVideo && AttemptError(io.video).None?
    ensures Audio in paths ==> paths[Audio] == audioPath
    ensures Video in paths ==> paths[Video] == videoPath
  {
    var withAudio: map<Modality, string> :=
      if wantAudio && AttemptError(io.audio).None? then map[Audio := audioPath] else map[];
    if wantVideo && AttemptError(io.video).None? then withAudio[Video := videoPath] else withAudio
  }

  /** The inputs of one call in a series. */
  datatype CallInput = CallInput(url: string, audioPath: string, videoPath: string, io: YtIo)

  /** Successive calls on one downloader instance. */
  function DownloadMany(d: Downloader, inputs: seq<CallInput>): (r: (seq<YtCall>, Downloader))
    ensures |r.0| == |inputs|
    decreases |inputs|
  {
    if |inputs| == 0 then ([], d)
    else
      var (first, next) := YtDlpDownload(d, inputs[0].url, inputs[0].audioPath, inputs[0].videoPath, inputs[0].io);
      var (rest, last) := DownloadMany(next, inputs[1..]);
      ([first] + rest, last)
  }

  /** The cookie each call of a series picked. */
  function PickedCookies(calls: seq<YtCall>): (r: seq<Option<string>>)
    ensures |r| == |calls|
    ensures forall k :: 0 <= k < |calls| ==> r[k] == calls[k].plan.cookie
  {
    seq(|calls|, k requires 0 <= k < |calls| => calls[k].plan.cookie)
  }

  /** One call picks one cookie and moves the pool on by one pick. */
  lemma CallTakesOneCookie(d: Downloader, input: CallInput)
    ensures var step := YtDlpDownload(d, input.url, input.audioPath, input.videoPath, input.io);
      step.1.pool == TakeCookie(d.pool).1 && step.0.plan.cookie == TakeCookie(d.pool).0
  {
  }

  lemma DownloadManyUnfold(d: Downloader, inputs: seq<CallInput>)
    requires |inputs| > 0
    ensures var step := YtDlpDownload(d, inputs[0].url, inputs[0].audioPath, inputs[0].videoPath, inputs[0].io);
      && DownloadMany(d, inputs).0 == [step.0] + DownloadMany(step.1, inputs[1..]).0
      && DownloadMany(d, inputs).1 == DownloadMany(step.1, inputs[1..]).1
  {
  }

  lemma PickedCookiesCons(first: YtCall, rest: seq<YtCall>)
    ensures PickedCookies([first] + rest) == [first.plan.cookie] + PickedCookies(rest)
  {
  }

  lemma TakeManyUnfold(p: CookiePool, n: nat)
    requires n > 0
    ensures TakeMany(p, n).0 == [TakeCookie(p).0] + TakeMany(TakeCookie(p).1, n - 1).0
    ensures TakeMany(p, n).1 == TakeMany(TakeCookie(p).1, n - 1).1
  {
  }

  /** What `n` calls do to the cookie pool: the same as `n` bare picks. */
  predicate PicksLikePool(d: Downloader, inputs: seq<CallInput>) {
    && PickedCookies(DownloadMany(d, inputs).0) == TakeMany(d.pool, |inputs|).0
    && DownloadMany(d, inputs).1.pool == TakeMany(d.pool, |inputs|).1
  }

  /** The inductive step: if the calls after the first pick like the pool
      the first call leaves, the whole series picks like the pool. */
  lemma PicksLikePoolStep(d: Downloader, inputs: seq<CallInput>)
    requires |inputs| > 0
    requires PicksLikePool(YtDlpDownload(d, inputs[0].url, inputs[0].audioPath, inputs[0].videoPath, inputs[0].io).1, inputs[1..])
    ensures PicksLikePool(d, inputs)
  {
    var step := YtDlpDownload(d, inputs[0].url, inputs[0].audioPath, inputs[0].videoPath, inputs[0].io);
    CallTakesOneCookie(d, inputs[0]);
    DownloadManyUnfold(d, inputs);
    PickedCookiesCons(step.0, DownloadMany(step.1, inputs[1..]).0);
    TakeManyUnfold(d.pool, |inputs|);
  }

  /** A series of calls picks its cookies exactly as the same number of bare
      picks from the pool would, whatever the calls' inputs and outcomes. */
  lemma {:induction false} DownloadManyPicks(d: Downloader, inputs: seq<CallInput>)
    ensures PickedCookies(DownloadMany(d, inputs).0) == TakeMany(d.pool, |inputs|).0
    ensures DownloadMany(d, inputs).1.pool == TakeMany(d.pool, |inputs|).1
    decreases |inputs|
  {
    if |inputs| > 0 {
      DownloadManyPicks(YtDlpDownload(d, inputs[0].url, inputs[0].audioPath, inputs[0].videoPath, inputs[0].io).1, inputs[1..]);
      PicksLikePoolStep(d, inputs);
    }
  }

  /** Across any series of calls, whatever their outcomes, the `k`-th call
      uses `files[(cursor + k) % len]` and the cursor ends one step further
      per call; with an empty pool no cookie is used and the cursor stays. */
  lemma DownloadManyRoundRobin(d: Downloader, inputs: seq<CallInput>)
    ensures DownloadMany(d, inputs).1.pool.files == d.pool.files
    ensures |d.pool.files| > 0 ==>
      && DownloadMany(d, inputs).1.pool.cursor == d.pool.cursor + |inputs|
      && forall k :: 0 <= k < |inputs| ==>
           DownloadMany(d, inputs).0[k].plan.cookie == Some(d.pool.files[(d.pool.cursor + k) % |d.pool.files|])
    ensures |d.pool.files| == 0 ==>
      && DownloadMany(d, inputs).1.pool == d.pool
      && forall k :: 0 <= k < |inputs| ==> DownloadMany(d, inputs).0[k].plan.cookie.None?
  {
    DownloadManyPicks(d, inputs);
    TakeManyRoundRobin(d.pool, |inputs|);
    var calls := DownloadMany(d, inputs).0;
    var picks := PickedCookies(calls);
    forall k | 0 <= k < |inputs|
      ensures calls[k].plan.cookie == PickAt(d.pool.files, d.pool.cursor + k)
    {
      assert calls[k].plan.cookie == picks[k];
    }
  }
}
